=== FILE: README.md ===
# Taverna timetables, servings and reviews: a verified model

Taverna plans the meals of a team on a repeating cycle. A **timetable** has:

- a cycle length;
- a reference day, and the date on which that day fell;
- a list of inactive weekdays.

**Menu items** attach a (meal, course, dish) to one day of the cycle. **Vendors** serve a timetable during a **tenure** (a vendor service) with optional start and end dates. A **serving** is the fact that a vendor served a menu item on a date.

Servings are created lazily by `ServingAutoUpdate.get_servings`. The first request for a (timetable, vendor, date) writes a bookkeeping row. Validating that row inserts one serving per menu item of the date's cycle day. Later requests find the row and write nothing. Users rate servings with one of five ratings, at most once per serving. The API flattens validation errors into a list of strings for the client, and copies update arguments onto a loaded instance.

The model is in six modules:

- `Wrappers` (`wrappers.dfy`) holds `Option` and `Result`. A raised `ValidationError` becomes `Err` with the list of every message that `full_clean` collected.
- `Timetables` (`timetables.dfy`) holds:
  - the entities as datatypes;
  - the write-time validators (`clean` and `full_clean` of Timetable, MenuItem, VendorService, Meal and Event);
  - `calculate_cycle_day`, the inactive-weekday test, and the two tenure queries.
- `Materializer` (`materializer.dfy`) holds the serving materialiser, modelled twice:
  - as functions on a value `Db` of the five tables involved;
  - as the class `Store`, whose methods update those tables in place and loop where the source loops. Each method's ensures give its whole effect; the loops are proved equal to the matching functions.
- `MaterializerProperties` (`materializer_properties.dfy`) proves what the materialiser guarantees across calls:
  - the unique-together constraints are kept;
  - the calls are idempotent;
  - the whole menu is served to a newly materialised vendor;
  - a stale bookkeeping row is never refreshed;
  - a call with no vendor can fail part-way.
- `Reviews` (`reviews.dfy`) holds the rating choices and the review table with its (user, serving) uniqueness.
- `CrudUtils` (`crud_utils.dfy`) holds `get_errors` and `load_object`.

Modelling conventions:

- Dates are proleptic Gregorian ordinals, as `date.toordinal()` gives them. So a difference of dates in days is a difference of integers, and `date.weekday()` is `(d + 6) % 7`.
- Tables are sequences in insertion order. A query that Django answers without an `ORDER BY` is modelled in table order.
- The database's unique-together constraints are invariants of the store (`Materializer.Consistent`, `Reviews.ValidReviews`).

Two points of the code deserve notice:

- `Timetable.get_vendors` filters on `end_date >= date`, and that comparison is false for an unset end date. So it omits the open-ended tenures that `Vendor.is_vendor_serving` accepts; `OpenEndedTenureOnlyServes` exhibits such a vendor.
- The review tests use an `anonymity_id` for which `Review` has no field; uniqueness is on (user, serving) only.

## Model

| member | source | states |
|---|---|---|
| Timetables.ValidTimetable | app/timetables/models.py:98-116 | What a stored timetable satisfies: cycle_length and ref_cycle_day are at least 1 (their MinValue validators) and ref_cycle_day <= cycle_length (the check of clean at lines 140-141); TimetableFullClean accepts exactly these |
| Timetables.TimetableFullClean | app/timetables/models.py:138-151 | A timetable is accepted exactly when 1 <= ref_cycle_day <= cycle_length; a reference day beyond a non-zero cycle length is reported as such |
| Timetables.MenuItemClean | app/timetables/models.py:238-249 | With a positive cycle length, a cycle day is accepted exactly when it lies in 1..cycle_length; one beyond it is reported with the range |
| Timetables.VendorServiceClean | app/timetables/models.py:326-339 | A tenure is accepted exactly when its start and end, if both set, satisfy start < end; a refused one has end <= start |
| Timetables.TenureWindowOk | app/timetables/models.py:327-328 | One tenure window that VendorService.clean accepts: when both dates are set, start < end; an open start or end is always accepted |
| Timetables.IntervalClean | app/timetables/models.py:32-38 | The interval check of Meal.clean (and, by the same rule, Event.clean at lines 282-286): accepted exactly when both ends set implies start strictly before end |
| Timetables.CalculateCycleDay | app/timetables/models.py:156-170 | Refused exactly for dates before the reference date; otherwise a day in 1..cycle_length congruent to ref_cycle_day plus the elapsed days |
| Timetables.CycleDayIsUniqueResidue | app/timetables/models.py:156-170 | The computed cycle day is the only number in 1..cycle_length with that congruence, so it is the cycle day by an independent definition |
| Timetables.CycleDayAtReference | app/timetables/models.py:156-170 | For a valid timetable, the reference date maps to the reference day |
| Timetables.CycleDayPeriodic | app/timetables/models.py:156-170 | The cycle day repeats every cycle_length days |
| Timetables.CycleDayNext | app/timetables/models.py:156-170 | The next date's cycle day is one more, wrapping from cycle_length to 1 |
| Timetables.FourteenDayCycleExample | app/timetables/models.py:156-170 | With a 14-day cycle whose day 2 is 2016-10-01, 2016-11-23/24/25 are days 13, 14 and 1, and 2016-09-30 is refused |
| Timetables.Weekday | app/timetables/models.py:179-180 | The weekday number lies in 0..6 |
| Timetables.IsInactiveThisDay | app/timetables/models.py:179-180 | The weekday's digit occurs as a character in inactive_weekdays |
| Timetables.InactiveIffListed | app/timetables/models.py:179-180 | For a comma list of one-digit weekdays, the substring test says inactive exactly when the weekday is in the list |
| Timetables.TwoDigitEntryMarksEachDigit | app/timetables/models.py:179-180 | An entry "10" makes Monday and Tuesday inactive (digit-wise match) but not Wednesday |
| Timetables.GetVendors | app/timetables/models.py:172-177 | A vendor is listed exactly when one of its tenures on the timetable has both dates set and start <= date <= end; never more entries than vendors |
| Timetables.CoversFromEnd | app/timetables/models.py:79-80 | One tenure row satisfies the is_vendor_serving query: this timetable and vendor, and an end date that is unset or not before the date |
| Timetables.IsVendorServing | app/timetables/models.py:78-81 | Some tenure row covers the date from its end; the start date is not consulted |
| Timetables.Brackets | app/timetables/models.py:174-176 | One tenure row satisfies the get_vendors filter: both dates set and start <= date <= end |
| Timetables.HasBracketingTenure | app/timetables/models.py:173-177 | A vendor passes get_vendors when one single tenure row of this timetable meets both date bounds, because one filter() call reuses the VendorService join |
| Timetables.GetVendorsAreServing | app/timetables/models.py:78-81 | Every vendor get_vendors lists also passes is_vendor_serving |
| Timetables.OpenEndedTenureOnlyServes | app/timetables/models.py:78-81 | An open-ended tenure makes a vendor serving while get_vendors omits it |
| Timetables.ServingIgnoresStartDate | app/timetables/models.py:78-81 | Changing a tenure's start date never changes is_vendor_serving |
| Timetables.ServingIsDownwardClosed | app/timetables/models.py:78-81 | A vendor serving on a date is serving on every earlier date |
| Materializer.Consistent | app/timetables/models.py:314-345 | The store invariant: vendor keys are distinct; (timetable, vendor) of tenures (line 345), (menu item, vendor, date) of servings (line 315), the menu tuple (line 257) and (timetable, vendor, date) of bookkeeping rows (line 442) are each unique; every stored tenure passes VendorService.clean (lines 326-331); every menu cycle day is at least 1 (line 232) |
| Materializer.MenuItemsOn | app/timetables/models.py:360-363 | The filter keeps exactly the items of that timetable and cycle day, and keeps them distinct |
| Materializer.GetMenuItems | app/timetables/models.py:357-370 | An early date gives the cycle-day error; otherwise the result is the non-empty set of the timetable's items on the date's cycle day, or the no-menu error when there is none |
| Materializer.ResolvedVendors | app/timetables/models.py:390-394 | The given vendor alone, or else every vendor row in table order |
| Materializer.Row | app/timetables/models.py:399-403 | The (timetable, vendor, date) bookkeeping row the loop looks up and creates |
| Materializer.Matching | app/timetables/models.py:407-411 | The final query returns exactly the stored servings of the menu, the vendors and the date |
| Materializer.InsertServings | app/timetables/models.py:418-427 | After the inserts the servings are the old ones (kept as a prefix) plus one per menu item for the vendor and date, with no duplicate |
| Materializer.CreateServingsEffect | app/timetables/models.py:413-427 | A vendor without tenure is refused first, then a date without menu; on success only the servings change, gaining exactly the menu's servings |
| Materializer.SaveAutoUpdateEffect | app/timetables/models.py:429-442 | The row is saved exactly when materialising succeeds and the (timetable, vendor, date) row is new; a duplicate row is reported; servings inserted by clean stay even when the row is refused |
| Materializer.MaterializeEffect | app/timetables/models.py:398-405 | The vendor loop changes only servings and bookkeeping rows, and only by appending; what it may append and when it fails are stated by the MaterializerProperties lemmas below |
| Materializer.GetServingsEffect | app/timetables/models.py:380-411 | The inactive check, then the tenure check, then the menu check, each failure returned with the store unchanged (the menu check's own error: early date or no menu); nothing is written unless all pass; the answer is exactly the stored servings of the menu, the vendors and the date |
| Materializer.Store.constructor | app/timetables/models.py:299-355 | The store starts empty and consistent |
| Materializer.Store.AddVendor | app/timetables/models.py:69-76 | Appends a vendor under a primary key no stored vendor has, keeping the store consistent |
| Materializer.Store.AddVendorService | app/timetables/models.py:326-345 | Stores the tenure exactly when clean accepts it and its (timetable, vendor) pair is new; otherwise reports every error and changes nothing |
| Materializer.Store.AddMenuItem | app/timetables/models.py:238-257 | Stores the item exactly when the cycle day is valid and the tuple is new (the uniqueness check is skipped when cycle_day failed); otherwise changes nothing |
| Materializer.Store.CreateServing | app/timetables/models.py:314-315 | A second (menu item, vendor, date) is refused with an integrity error and changes nothing; a new one is appended |
| Materializer.Store.CreateServingsIfNotExist | app/timetables/models.py:413-427 | The insert loop has exactly the effect of CreateServingsEffect and keeps the store consistent |
| Materializer.Store.SaveAutoUpdate | app/timetables/models.py:429-436 | Has exactly the effect and errors of SaveAutoUpdateEffect |
| Materializer.Store.MaterializeVendors | app/timetables/models.py:398-405 | The vendor loop has exactly the effect and errors of MaterializeEffect |
| Materializer.Store.GetServings | app/timetables/models.py:380-411 | Has exactly the effect and answer of GetServingsEffect and keeps the store consistent |
| MaterializerProperties.MaterializeAllBooked | app/timetables/models.py:404-405 | When every vendor has its bookkeeping row, the loop writes nothing |
| MaterializerProperties.MaterializeBooksEveryVendor | app/timetables/models.py:398-405 | After a successful loop, every vendor has its bookkeeping row |
| MaterializerProperties.MaterializeServesFreshVendor | app/timetables/models.py:398-431 | After a successful loop, a vendor that had no row has a serving for every menu item |
| MaterializerProperties.MaterializeFailsOnUntenured | app/timetables/models.py:398-415 | An unbooked vendor without tenure, anywhere in the list, makes the vendor loop fail |
| MaterializerProperties.MaterializeSucceedsWhenTenured | app/timetables/models.py:398-427 | With the day's menu present, the loop succeeds when every vendor still to be booked has a tenure |
| MaterializerProperties.MaterializeWritesOnlyFreshVendors | app/timetables/models.py:398-427 | The loop writes nothing else: every new serving is one of the day's menu, on the date, for a listed vendor that had no bookkeeping row, and every new bookkeeping row is a listed vendor's (timetable, vendor, date) row |
| MaterializerProperties.MaterializeStopsAtUntenured | app/timetables/models.py:394-415 | When vs[k] is the first vendor with neither a bookkeeping row nor a tenure, the loop ends with exactly the writes of vs[..k] and the tenure error |
| MaterializerProperties.MaterializeFailsIffUntenured | app/timetables/models.py:398-427 | With the day's menu present, the loop fails exactly when some vendor it has to book has no tenure |
| MaterializerProperties.SaveAutoUpdateKeepsConsistency | app/timetables/models.py:433-442 | Saving a bookkeeping row keeps every unique-together constraint |
| MaterializerProperties.MaterializeKeepsConsistency | app/timetables/models.py:398-405 | The vendor loop keeps the constraints even when it stops at a failure |
| MaterializerProperties.GetServingsKeepsConsistency | app/timetables/models.py:380-411 | get_servings never duplicates a serving or a bookkeeping row |
| MaterializerProperties.GetServingsIdempotent | app/timetables/models.py:380-411 | A second identical successful call writes nothing and returns the same servings |
| MaterializerProperties.GetServingsServesFreshVendor | app/timetables/models.py:380-411 | A vendor materialised by the call gets one serving per menu item in the answer |
| MaterializerProperties.GetServingsStaleBookkeeping | app/timetables/models.py:404-411 | With the bookkeeping row present, the call writes nothing and answers from the stored servings |
| MaterializerProperties.StaleBookkeepingMissesNewItem | app/timetables/models.py:404-411 | A menu item added after the row was written never gets a serving for that vendor and date |
| MaterializerProperties.GetServingsFailsOnUntenuredVendor | app/timetables/models.py:393-415 | Without a vendor, the call raises when some vendor row without a bookkeeping row for the date lacks a tenure |
| MaterializerProperties.GetServingsCountForFreshVendor | app/timetables/models.py:380-411 | For a newly materialised vendor, the answer has exactly as many servings as the menu has items |
| MaterializerProperties.NoVendorPathFailsPartWay | app/timetables/models.py:393-405 | Without a vendor, a vendor lacking tenure fails the call after an earlier vendor's serving and row were written, and those stay |
| Reviews.Code | app/reviews/models.py:17-23 | Every rating is stored as a code in 1..5 |
| Reviews.FromCode | app/reviews/models.py:17-27 | A code is a valid choice exactly when it lies in 1..5, and then names the rating with that code |
| Reviews.Label | app/reviews/models.py:17-23 | The label RATINGS pairs with each rating |
| Reviews.ChoicesMatchRatings | app/reviews/models.py:17-23 | A code is a choice exactly when it names a rating, and that rating's label is the one RATINGS pairs with the code |
| Reviews.RatingCodesBijective | app/reviews/models.py:17-23 | Codes and ratings correspond one to one, from TERRIBLE (1) up to EXCELLENT (5) |
| Reviews.ValidReviews | app/reviews/models.py:25-34 | The review table invariant: every stored value is one of the five choices (line 27) and no two reviews share a (user, serving) pair (line 34) |
| Reviews.CreateEffect | app/reviews/models.py:25-34 | A review is accepted exactly when its value is a choice and the (user, serving) pair is new; both failures are reported together; acceptance appends exactly that review |
| Reviews.CreateKeepsValid | app/reviews/models.py:33-34 | An accepted review keeps the table's ratings valid and its pairs unique |
| Reviews.UniquenessIsOnThePair | app/reviews/models.py:33-34 | The same user may review another serving and another user the same serving, but a second review of a pair is refused |
| Reviews.ReviewTable.constructor | app/reviews/models.py:10-34 | The review table starts empty and valid |
| Reviews.ReviewTable.Create | app/reviews/models.py:25-34 | The validated insert (full_clean then save): a refused review changes nothing, an accepted one is appended, and the table stays valid |
| CrudUtils.JoinMessages | app/api/cruds/utils.py:11 | A single message is its own join |
| CrudUtils.SplitPlain | app/api/cruds/utils.py:11 | A single message without ';' splits back into itself |
| CrudUtils.SplitAfterPlain | app/api/cruds/utils.py:11 | A message without ';' followed by "; " comes back whole as the first piece |
| CrudUtils.SplitJoin | app/api/cruds/utils.py:11 | Messages without ';' are recovered exactly by splitting their join at "; " |
| CrudUtils.GetErrors | app/api/cruds/utils.py:6-13 | The list has exactly two entries per field of the error |
| CrudUtils.GetErrorsAt | app/api/cruds/utils.py:10-12 | The i-th field's name is at position 2i and its messages, joined with "; ", at 2i+1 |
| CrudUtils.GetErrorsPairs | app/api/cruds/utils.py:6-13 | Read back in pairs, the list is exactly the fields with their joined messages, in order; no fields give an empty list |
| CrudUtils.FieldMessagesRecoverable | app/api/cruds/utils.py:6-13 | A field whose messages contain no ';' can be recovered whole from the flat list |
| CrudUtils.Overwrites | app/api/cruds/utils.py:32 | An attribute is overwritten exactly when its current value is truthy and its name is not "id" |
| CrudUtils.LoadEffect | app/api/cruds/utils.py:30-34 | The instance keeps its set of attributes; the copy fails exactly when some argument names an attribute the instance lacks |
| CrudUtils.LoadObject | app/api/cruds/utils.py:30-34 | The loop has exactly the effect of LoadEffect and hands back the same instance |
| CrudUtils.LoadKeepsIdAndFalsy | app/api/cruds/utils.py:32 | Whatever the arguments, "id" and every falsy attribute keep their values |
| CrudUtils.LoadCharacterization | app/api/cruds/utils.py:30-34 | With distinct known keys the copy succeeds, and an attribute takes its argument exactly when it was truthy and is not "id"; others are unchanged |
| CrudUtils.UnknownAttributeStopsPartWay | app/api/cruds/utils.py:31-33 | An unknown name raises after earlier arguments were already copied, and those copies stay |

## Left out

- Timestamps (`TimestampMixin`) and the hash-encoded public id of a serving are left out. The public id has a clock-based default. A public-id collision would be an integrity error, which `create_servings_if_not_exist` would also swallow.
- Slugs are left out. `SlugifyMixin.clean` (common/mixins.py:29-34) sets the slug from the name and refuses an object whose slug is already taken.
- Materializer.Store.AddVendor: does not model the slug refusal. `Vendor.save` runs `SlugifyMixin.clean` (common/mixins.py:36-38), so the source refuses a vendor whose name slugifies to an existing slug, while the model always appends it.
- Timetables.TimetableFullClean: does not model the slug refusal. `Timetable.clean` reaches `SlugifyMixin.clean` through `super().clean()` (models.py:146), so the source also refuses a timetable whose name slugifies to an existing slug. "Accepted exactly when" covers the cycle fields only.
- Transactions, concurrency and database isolation are left out. Two concurrent `get_servings` calls are not modelled. Each modelled write is one atomic step.
- Field checks and the type conversion that Django itself performs are left out:
  - the upper bound of `PositiveSmallIntegerField`;
  - the format validator `validate_comma_separated_integer_list` on `inactive_weekdays`;
  - `max_length` of the character fields.
- `Timetables.IntervalClean` works on integers (times and moments as numbers). Python 3.5 and later treat every `time` and `datetime` as true, so "both set" is the only guard the model needs. For Meal it does not model the slug refusal that `super().clean()` reaches at models.py:38 (common/mixins.py:29-34): a meal whose name slugifies to a stored slug, its own included when a stored meal is saved again, is refused with "This object already exists." Event has no slug, so for Event the rule is exact.
- Event's `(name, start_date, end_date)` unique-together constraint and Course's unique `sequence_order` are left out. Neither appears in the serving or review logic.
- `get_user` and `get_object` are left out, and so is the GraphQL and HTTP layer around the mutations. They decode relay ids and query the database. `load_object` applied to `None` (a failed `get_object`) is left out too.
- Reviews.ReviewTable.Create: models the validated insert (the choices and the (user, serving) rule as `full_clean` enforces them, then the save), not the create mutation. The mutation (app/api/cruds/review_crud.py:50-57) passes an `anonymity_id` keyword that `Review` has no field for, so the model constructor raises `TypeError` before `full_clean`. It also sets no user. As written it never stores a review.
- `Review.save` by itself does not validate. Only the update mutation calls `full_clean` before saving (app/api/cruds/review_crud.py:79-81). `int()` on a non-numeric value raises outside `ValidationError`, and that is not modelled.
- `CrudUtils.GetErrors` takes the message dict as a sequence of (field, messages) pairs in dictionary order. How Django builds `message_dict` from a `ValidationError`, including the `__all__` key for non-field errors, is left out.
- `CrudUtils.Value` keeps only what truthiness needs: null, booleans, integers, strings and related objects. Floats, containers and other Python values are left out.
- `Materializer.Store` methods take timetables, vendors and dates as values. Foreign-key existence, which `full_clean` (in `clean_fields`, before any insert) and the database enforce, is assumed of the callers.

=== FILE: crud_utils.dfy ===
/** Helpers shared by the API's create and update mutations: flattening a
    validation error into the client's error list, and copying arguments onto
    a loaded model instance. */
module CrudUtils {
  import opened Wrappers

  // ---------------------------------------------------------------------
  // get_errors
  // ---------------------------------------------------------------------

  /** The messages of one field, joined with "; ". */
  function JoinMessages(ms: seq<string>): (s: string)
    ensures |ms| == 1 ==> s == ms[0]
    decreases |ms|
  {
    if ms == [] then ""
    else if |ms| == 1 then ms[0]
    else ms[0] + "; " + JoinMessages(ms[1..])
  }

  /** The index of the first "; " in `s` at or after `from`, or |s| if none. */
  function FirstSeparator(s: string, from: nat): (i: nat)
    requires from <= |s|
    ensures from <= i <= |s|
    ensures i < |s| ==> i + 1 < |s| && s[i] == ';' && s[i + 1] == ' '
    ensures forall k :: from <= k < i && k + 1 < |s| ==> !(s[k] == ';' && s[k + 1] == ' ')
    decreases |s| - from
  {
    if from + 1 >= |s| then |s|
    else if s[from] == ';' && s[from + 1] == ' ' then from
    else FirstSeparator(s, from + 1)
  }

  /** Cutting a joined string back into messages at every "; ". */
  function SplitMessages(s: string): (ms: seq<string>)
    ensures |ms| >= 1
    decreases |s|
  {
    var i := FirstSeparator(s, 0);
    if i == |s| then [s] else [s[..i]] + SplitMessages(s[i + 2..])
  }

  /** `m` has no ';' in it. */
  predicate PlainMessage(m: string) {
    forall k :: 0 <= k < |m| ==> m[k] != ';'
  }

  /** A plain message contains no separator. */
  lemma SplitPlain(m: string)
    requires PlainMessage(m)
    ensures SplitMessages(m) == [m]
  {
    assert FirstSeparator(m, 0) == |m|;
  }

  /** A plain message followed by "; " is cut off whole as the first piece. */
  lemma SplitAfterPlain(m: string, rest: string)
    requires PlainMessage(m)
    ensures SplitMessages(m + "; " + rest) == [m] + SplitMessages(rest)
  {
    var s := m + "; " + rest;
    assert s[|m|] == ';' && s[|m| + 1] == ' ';
    assert forall k :: 0 <= k < |m| ==> s[k] == m[k];
    assert FirstSeparator(s, 0) == |m|;
    assert s[..|m|] == m;
    assert s[|m| + 2..] == rest;
  }

  /** Joining loses nothing when no message contains ';': the messages can be
      read back from the joined string. */
  lemma {:induction false} SplitJoin(ms: seq<string>)
    requires ms != []
    requires forall j :: 0 <= j < |ms| ==> PlainMessage(ms[j])
    ensures SplitMessages(JoinMessages(ms)) == ms
    decreases |ms|
  {
    if |ms| == 1 {
      SplitPlain(ms[0]);
    } else {
      SplitAfterPlain(ms[0], JoinMessages(ms[1..]));
      SplitJoin(ms[1..]);
      assert ms == [ms[0]] + ms[1..];
    }
  }

  /** get_errors: the field names of a validation error's message dict,
      each followed by its messages joined into one string. */
  function GetErrors(messageDict: seq<(string, seq<string>)>): (errors: seq<string>)
    ensures |errors| == 2 * |messageDict|
    decreases |messageDict|
  {
    if messageDict == [] then []
    else [messageDict[0].0, JoinMessages(messageDict[0].1)] + GetErrors(messageDict[1..])
  }

  /** The i-th field's name sits at position 2i and its joined messages right
      after it. */
  lemma {:induction false} GetErrorsAt(messageDict: seq<(string, seq<string>)>, i: nat)
    requires i < |messageDict|
    ensures GetErrors(messageDict)[2 * i] == messageDict[i].0
    ensures GetErrors(messageDict)[2 * i + 1] == JoinMessages(messageDict[i].1)
    decreases i
  {
    if i > 0 {
      var rest := GetErrors(messageDict[1..]);
      GetErrorsAt(messageDict[1..], i - 1);
      assert GetErrors(messageDict)[2..] == rest;
      assert GetErrors(messageDict)[2 * i] == rest[2 * (i - 1)];
      assert GetErrors(messageDict)[2 * i + 1] == rest[2 * (i - 1) + 1];
    }
  }

  /** Reading a flat error list back as (field, message) pairs. */
  function Pairs(flat: seq<string>): (ps: seq<(string, string)>)
    requires |flat| % 2 == 0
    ensures |ps| == |flat| / 2
    decreases |flat|
  {
    if flat == [] then [] else [(flat[0], flat[1])] + Pairs(flat[2..])
  }

  /** The flat list is exactly the fields paired with their joined messages,
      in order; an error with no fields gives an empty list. */
  lemma {:induction false} GetErrorsPairs(messageDict: seq<(string, seq<string>)>)
    ensures Pairs(GetErrors(messageDict))
            == seq(|messageDict|, i requires 0 <= i < |messageDict| =>
                     (messageDict[i].0, JoinMessages(messageDict[i].1)))
    ensures messageDict == [] <==> GetErrors(messageDict) == []
    decreases |messageDict|
  {
    if messageDict != [] {
      var flat := GetErrors(messageDict);
      GetErrorsPairs(messageDict[1..]);
      assert flat[2..] == GetErrors(messageDict[1..]);
    }
  }

  /** A field whose messages contain no ';' can be recovered whole from the
      flat list. */
  lemma FieldMessagesRecoverable(messageDict: seq<(string, seq<string>)>, i: nat)
    requires i < |messageDict|
    requires messageDict[i].1 != []
    requires forall j :: 0 <= j < |messageDict[i].1| ==> PlainMessage(messageDict[i].1[j])
    ensures var errors := GetErrors(messageDict);
            errors[2 * i] == messageDict[i].0 && SplitMessages(errors[2 * i + 1]) == messageDict[i].1
  {
    GetErrorsAt(messageDict, i);
    SplitJoin(messageDict[i].1);
  }

  // ---------------------------------------------------------------------
  // load_object
  // ---------------------------------------------------------------------

  /** An attribute value of a model instance, as far as truthiness goes. */
  datatype Value =
    | Null
    | Bool(b: bool)
    | Int(n: int)
    | Text(s: string)
    | Object(id: nat)

  /** Python truthiness of an attribute value. */
  predicate Truthy(v: Value) {
    match v
    case Null => false
    case Bool(b) => b
    case Int(n) => n != 0
    case Text(s) => s != ""
    case Object(_) => true
  }

  /** getattr on a name the instance does not have. */
  datatype LoadError = AttributeError(name: string)

  /** A loaded model instance, whose attributes are set in place. */
  class ModelInstance {
    var attrs: map<string, Value>

    constructor (attrs: map<string, Value>)
      ensures this.attrs == attrs
    {
      this.attrs := attrs;
    }
  }

  /** Whether load_object overwrites attribute `key`: it must be set to
      something truthy and not be the primary key. */
  predicate Overwrites(attrs: map<string, Value>, key: string)
    requires key in attrs
  {
    Truthy(attrs[key]) && key != "id"
  }

  /** The attributes after load_object has gone through `args` in order, and
      the error that stopped it, if any. Writes made before the error stay. */
  function LoadEffect(attrs: map<string, Value>, args: seq<(string, Value)>): (r: (map<string, Value>, Option<LoadError>))
    ensures r.0.Keys == attrs.Keys
    ensures r.1.None? <==> forall j :: 0 <= j < |args| ==> args[j].0 in attrs
    decreases |args|
  {
    if args == [] then (attrs, None)
    else
      var (key, value) := args[0];
      if key !in attrs then (attrs, Some(AttributeError(key)))
      else
        var r := LoadEffect(if Overwrites(attrs, key) then attrs[key := value] else attrs, args[1..]);
        assert forall j :: 1 <= j < |args| ==> args[j] == args[1..][j - 1];
        r
  }

  /** load_object: copies each argument onto the instance when the
      instance's current value is truthy and the key is not "id", and hands
      back the same instance. */
  method LoadObject(instance: ModelInstance, args: seq<(string, Value)>) returns (r: Result<ModelInstance, LoadError>)
    modifies instance
    ensures var (attrs, err) := LoadEffect(old(instance.attrs), args);
            && instance.attrs == attrs
            && (if err.None? then r == Ok(instance) else r == Err([err.value]))
  {
    var i := 0;
    while i < |args|
      invariant 0 <= i <= |args|
      invariant LoadEffect(instance.attrs, args[i..]) == LoadEffect(old(instance.attrs), args)
    {
      var (key, value) := args[i];
      assert args[i..][1..] == args[i + 1..];
      if key !in instance.attrs {
        return Err([AttributeError(key)]);
      }
      if Truthy(instance.attrs[key]) && key != "id" {
        instance.attrs := instance.attrs[key := value];
      }
      i := i + 1;
    }
    r := Ok(instance);
  }

  /** No key of `args` is listed twice (as in a dict of arguments). */
  predicate DistinctKeys(args: seq<(string, Value)>) {
    forall i, j :: 0 <= i < j < |args| ==> args[i].0 != args[j].0
  }

  /** Whatever the arguments, the primary key and every attribute that was
      falsy keep their values. */
  lemma {:induction false} LoadKeepsIdAndFalsy(attrs: map<string, Value>, args: seq<(string, Value)>, key: string)
    requires key in attrs
    requires key == "id" || !Truthy(attrs[key])
    ensures LoadEffect(attrs, args).0[key] == attrs[key]
    decreases |args|
  {
    if args != [] && args[0].0 in attrs {
      var (k, v) := args[0];
      var next := if Overwrites(attrs, k) then attrs[k := v] else attrs;
      assert next[key] == attrs[key];
      LoadKeepsIdAndFalsy(next, args[1..], key);
    }
  }

  /** With distinct keys that the instance all has, load_object succeeds and
      each attribute ends as the argument given for it exactly when it is
      overwritten; every other attribute keeps its value. */
  lemma {:induction false} LoadCharacterization(attrs: map<string, Value>, args: seq<(string, Value)>, key: string)
    requires DistinctKeys(args)
    requires forall j :: 0 <= j < |args| ==> args[j].0 in attrs
    requires key in attrs
    ensures LoadEffect(attrs, args).1 == None
    ensures forall j :: 0 <= j < |args| && args[j].0 == key ==>
              LoadEffect(attrs, args).0[key] == (if Overwrites(attrs, key) then args[j].1 else attrs[key])
    ensures (forall j :: 0 <= j < |args| ==> args[j].0 != key) ==> LoadEffect(attrs, args).0[key] == attrs[key]
    decreases |args|
  {
    if args != [] {
      var (k, v) := args[0];
      var next := if Overwrites(attrs, k) then attrs[k := v] else attrs;
      var rest := args[1..];
      assert forall j :: 0 <= j < |rest| ==> rest[j] == args[j + 1];
      LoadCharacterization(next, rest, key);
      if k == key {
        assert forall j :: 0 <= j < |rest| ==> rest[j].0 != key;
        forall j | 0 <= j < |args| && args[j].0 == key
          ensures LoadEffect(attrs, args).0[key] == (if Overwrites(attrs, key) then args[j].1 else attrs[key])
        {
          assert j == 0;
        }
      } else {
        assert next[key] == attrs[key];
        forall j | 0 <= j < |args| && args[j].0 == key
          ensures LoadEffect(attrs, args).0[key] == (if Overwrites(attrs, key) then args[j].1 else attrs[key])
        {
          assert rest[j - 1] == args[j];
        }
      }
    }
  }

  /** An unknown name stops the copy with an error, and the writes already
      made stay on the instance. */
  lemma UnknownAttributeStopsPartWay()
    ensures var attrs := map["value" := Int(3), "comment" := Text("")];
            LoadEffect(attrs, [("value", Int(5)), ("anonymity_id", Text("a")), ("comment", Text("ok"))])
            == (attrs["value" := Int(5)], Some(AttributeError("anonymity_id")))
  {
    var attrs := map["value" := Int(3), "comment" := Text("")];
    var args := [("value", Int(5)), ("anonymity_id", Text("a")), ("comment", Text("ok"))];
    assert args[1..] == [("anonymity_id", Text("a")), ("comment", Text("ok"))];
    assert Overwrites(attrs, "value");
  }
}

=== FILE: materializer.dfy ===
/** The serving materialiser of ServingAutoUpdate: given a timetable, a date and
    optionally a vendor, it checks that the timetable is active, that the
    vendor has a tenure and that a menu exists for the date's cycle day; then,
    for every vendor without a bookkeeping row for (timetable, vendor, date),
    it saves such a row, whose validation inserts one Serving per menu item;
    finally it returns the matching Serving rows.

    The store is modelled twice: as the value `Db`, on which the effect of
    each operation is a function, and as the class `Store`, whose methods
    update its tables in place, loop as the source does, and are proved to
    have exactly those effects. */
module Materializer {
  import opened Wrappers
  import opened Timetables

  /** The tables the materialiser reads and writes, as plain values. */
  datatype Db = Db(
    vendors: seq<Vendor>,
    services: seq<VendorService>,
    menuItems: seq<MenuItem>,
    servings: seq<Serving>,
    autoUpdates: seq<AutoUpdate>)

  predicate NoDuplicates<T(==)>(s: seq<T>) {
    forall i, j :: 0 <= i < j < |s| ==> s[i] != s[j]
  }

  /** The store's integrity: primary keys of vendors, the unique-together
      constraints of VendorService, MenuItem, Serving and ServingAutoUpdate,
      and what the write validators let into the tenure and menu tables. */
  predicate Consistent(db: Db) {
    && (forall i, j :: 0 <= i < j < |db.vendors| ==> db.vendors[i].id != db.vendors[j].id)
    && (forall i, j :: 0 <= i < j < |db.services| ==>
          (db.services[i].timetable, db.services[i].vendor) != (db.services[j].timetable, db.services[j].vendor))
    && (forall i :: 0 <= i < |db.services| ==> TenureWindowOk(db.services[i]))
    && (forall i :: 0 <= i < |db.menuItems| ==> db.menuItems[i].cycleDay >= 1)
    && NoDuplicates(db.menuItems)
    && NoDuplicates(db.servings)
    && NoDuplicates(db.autoUpdates)
  }

  function VendorIds(vs: seq<Vendor>): (ids: seq<Id>)
    ensures |ids| == |vs|
    ensures forall i :: 0 <= i < |vs| ==> ids[i] == vs[i].id
  {
    seq(|vs|, i requires 0 <= i < |vs| => vs[i].id)
  }

  // ---------------------------------------------------------------------------
  // Queries
  // ---------------------------------------------------------------------------

  /** MenuItem.objects.filter(timetable=tt, cycle_day=cycleDay), in table order. */
  function MenuItemsOn(items: seq<MenuItem>, tt: Id, cycleDay: nat): (r: seq<MenuItem>)
    ensures forall m :: m in r <==> m in items && m.timetable == tt && m.cycleDay == cycleDay
    ensures NoDuplicates(items) ==> NoDuplicates(r)
  {
    if items == [] then []
    else
      var rest := MenuItemsOn(items[1..], tt, cycleDay);
      assert forall m :: m in items <==> m == items[0] || m in items[1..];
      if items[0].timetable == tt && items[0].cycleDay == cycleDay then [items[0]] + rest else rest
  }

  /** ServingAutoUpdate.get_menu_items: the menu of the date's cycle day; an
      early date and an empty menu are both errors. */
  function GetMenuItems(items: seq<MenuItem>, tt: Timetable, date: Date): (r: Result<seq<MenuItem>, Error>)
    requires tt.cycleLength >= 1
    ensures date < tt.refCycleDate ==> r == Err([DateBeforeReference(tt.refCycleDate)])
    ensures r.Ok? ==> r.value != [] && forall m :: m in r.value <==>
      m in items && m.timetable == tt.id && CalculateCycleDay(tt, date) == Ok(m.cycleDay)
    ensures date >= tt.refCycleDate && r.Err? ==>
      && r.errors == [NoMenuItems]
      && forall m :: m in items && m.timetable == tt.id ==> CalculateCycleDay(tt, date) != Ok(m.cycleDay)
    ensures r.Ok? && NoDuplicates(items) ==> NoDuplicates(r.value)
  {
    match CalculateCycleDay(tt, date)
    case Err(e) => Err(e)
    case Ok(cycleDay) =>
      var menu := MenuItemsOn(items, tt.id, cycleDay);
      if menu == [] then Err([NoMenuItems]) else Ok(menu)
  }

  /** Serving.objects.filter(menu_item__in=menu, vendor__in=vendors,
      date_served=date), in table order. */
  function Matching(ss: seq<Serving>, menu: seq<MenuItem>, vendors: seq<Id>, date: Date): (r: seq<Serving>)
    ensures forall s :: s in r <==>
      s in ss && s.menuItem in menu && s.vendor in vendors && s.dateServed == date
    ensures NoDuplicates(ss) ==> NoDuplicates(r)
  {
    if ss == [] then []
    else
      var rest := Matching(ss[1..], menu, vendors, date);
      assert forall s :: s in ss <==> s == ss[0] || s in ss[1..];
      var s := ss[0];
      if s.menuItem in menu && s.vendor in vendors && s.dateServed == date then [s] + rest else rest
  }

  // ---------------------------------------------------------------------------
  // Effects of the writing operations on the store
  // ---------------------------------------------------------------------------

  /** The Serving inserts of create_servings_if_not_exist, one per menu item
      in order; an insert whose (menu item, vendor, date) exists is refused by
      the database and the refusal is swallowed. */
  function InsertServings(ss: seq<Serving>, menu: seq<MenuItem>, v: Id, date: Date): (r: seq<Serving>)
    ensures forall s :: s in r <==> s in ss || (s.menuItem in menu && s.vendor == v && s.dateServed == date)
    ensures |ss| <= |r| && r[..|ss|] == ss
    ensures NoDuplicates(ss) ==> NoDuplicates(r)
    decreases |menu|
  {
    if menu == [] then ss
    else
      var s := Serving(menu[0], v, date);
      var next := if s in ss then ss else ss + [s];
      assert forall m :: m in menu <==> m == menu[0] || m in menu[1..];
      var r := InsertServings(next, menu[1..], v, date);
      assert r[..|ss|] == next[..|next|][..|ss|];
      r
  }

  /** ServingAutoUpdate.create_servings_if_not_exist: refuses a vendor without
      tenure, then a date without menu, and otherwise inserts the servings. */
  function CreateServingsEffect(db: Db, tt: Timetable, v: Id, date: Date): (r: Result<Db, Error>)
    requires tt.cycleLength >= 1
    ensures !IsVendorServing(db.services, tt.id, v, date) ==> r == Err([VendorNotServing])
    ensures r.Ok? <==> IsVendorServing(db.services, tt.id, v, date) && GetMenuItems(db.menuItems, tt, date).Ok?
    ensures r.Err? && IsVendorServing(db.services, tt.id, v, date) ==>
      r.errors == GetMenuItems(db.menuItems, tt, date).errors
    ensures r.Ok? ==>
      && r.value == db.(servings := r.value.servings)
      && |db.servings| <= |r.value.servings| && r.value.servings[..|db.servings|] == db.servings
      && forall s :: s in r.value.servings <==>
           (s in db.servings ||
            (s.menuItem in GetMenuItems(db.menuItems, tt, date).value && s.vendor == v && s.dateServed == date))
  {
    if !IsVendorServing(db.services, tt.id, v, date) then Err([VendorNotServing])
    else
      match GetMenuItems(db.menuItems, tt, date)
      case Err(e) => Err(e)
      case Ok(menu) => Ok(db.(servings := InsertServings(db.servings, menu, v, date)))
  }

  /** The bookkeeping row ServingAutoUpdate.save writes. */
  function Row(tt: Timetable, v: Id, date: Date): AutoUpdate {
    AutoUpdate(tt.id, v, date)
  }

  /** ServingAutoUpdate.save: full_clean runs clean(), which materialises the
      servings, then the unique-together check; every error is collected, and
      the row is inserted only when there is none. Servings inserted by
      clean() stay even when the row itself is refused. */
  function SaveAutoUpdateEffect(db: Db, tt: Timetable, v: Id, date: Date): (r: (Db, seq<Error>))
    requires tt.cycleLength >= 1
    ensures r.1 == [] <==> CreateServingsEffect(db, tt, v, date).Ok? && Row(tt, v, date) !in db.autoUpdates
    ensures r.1 == [] ==> r.0 == CreateServingsEffect(db, tt, v, date).value.(autoUpdates := db.autoUpdates + [Row(tt, v, date)])
    ensures r.1 != [] ==> r.0 == (match CreateServingsEffect(db, tt, v, date) case Ok(db1) => db1 case Err(_) => db)
    ensures Row(tt, v, date) in db.autoUpdates ==> NotUnique("timetable, vendor, date") in r.1
  {
    var cleaned := CreateServingsEffect(db, tt, v, date);
    var db1 := if cleaned.Ok? then cleaned.value else db;
    var errs := (if cleaned.Err? then cleaned.errors else [])
      + (if Row(tt, v, date) in db.autoUpdates then [NotUnique("timetable, vendor, date")] else []);
    if errs == [] then (db1.(autoUpdates := db1.autoUpdates + [Row(tt, v, date)]), [])
    else (db1, errs)
  }

  /** The vendor loop of get_servings: a vendor that already has its
      bookkeeping row is skipped; otherwise the row is saved, and the first
      failure ends the call with every earlier write kept. */
  function MaterializeEffect(db: Db, tt: Timetable, date: Date, vendors: seq<Id>): (r: (Db, seq<Error>))
    requires tt.cycleLength >= 1
    ensures r.0.vendors == db.vendors && r.0.services == db.services && r.0.menuItems == db.menuItems
    ensures |db.servings| <= |r.0.servings| && r.0.servings[..|db.servings|] == db.servings
    ensures |db.autoUpdates| <= |r.0.autoUpdates| && r.0.autoUpdates[..|db.autoUpdates|] == db.autoUpdates
    decreases |vendors|
  {
    if vendors == [] then (db, [])
    else if Row(tt, vendors[0], date) in db.autoUpdates then
      MaterializeEffect(db, tt, date, vendors[1..])
    else
      var saved := SaveAutoUpdateEffect(db, tt, vendors[0], date);
      if saved.1 != [] then saved
      else
        var r := MaterializeEffect(saved.0, tt, date, vendors[1..]);
        assert r.0.servings[..|db.servings|] == r.0.servings[..|saved.0.servings|][..|db.servings|];
        assert r.0.autoUpdates[..|db.autoUpdates|] == r.0.autoUpdates[..|saved.0.autoUpdates|][..|db.autoUpdates|];
        r
  }

  /** The vendors get_servings works on: the given one, or every vendor row. */
  function ResolvedVendors(db: Db, vendor: Option<Id>): seq<Id> {
    if vendor.Some? then [vendor.value] else VendorIds(db.vendors)
  }

  /** ServingAutoUpdate.get_servings: the three checks in order, then the
      vendor loop, then the query for the matching servings. */
  function GetServingsEffect(db: Db, tt: Timetable, date: Date, vendor: Option<Id>)
    : (r: (Db, Result<seq<Serving>, Error>))
    requires tt.cycleLength >= 1
    // nothing is written unless all three checks pass
    ensures r.0 != db ==>
      && tt.isActive && !IsInactiveThisDay(tt, date)
      && (vendor.Some? ==> IsVendorServing(db.services, tt.id, vendor.value, date))
      && GetMenuItems(db.menuItems, tt, date).Ok?
    // the checks come in this order
    ensures !tt.isActive || IsInactiveThisDay(tt, date) ==> r == (db, Err([TimetableInactive(date)]))
    ensures (tt.isActive && !IsInactiveThisDay(tt, date) && vendor.Some?
             && !IsVendorServing(db.services, tt.id, vendor.value, date)) ==> r == (db, Err([VendorNotServing]))
    ensures (tt.isActive && !IsInactiveThisDay(tt, date)
             && (vendor.Some? ==> IsVendorServing(db.services, tt.id, vendor.value, date))
             && GetMenuItems(db.menuItems, tt, date).Err?)
            ==> r == (db, Err(GetMenuItems(db.menuItems, tt, date).errors))
    // only servings of the day's menu, the resolved vendors and the date are returned
    ensures r.1.Ok? ==> GetMenuItems(db.menuItems, tt, date).Ok? && forall s :: s in r.1.value <==>
      && s in r.0.servings && s.dateServed == date
      && s.menuItem in GetMenuItems(db.menuItems, tt, date).value
      && s.vendor in ResolvedVendors(db, vendor)
  {
    if !tt.isActive || IsInactiveThisDay(tt, date) then (db, Err([TimetableInactive(date)]))
    else if vendor.Some? && !IsVendorServing(db.services, tt.id, vendor.value, date) then
      (db, Err([VendorNotServing]))
    else
      var vendors := ResolvedVendors(db, vendor);
      match GetMenuItems(db.menuItems, tt, date)
      case Err(e) => (db, Err(e))
      case Ok(menu) =>
        var done := MaterializeEffect(db, tt, date, vendors);
        if done.1 != [] then (done.0, Err(done.1))
        else (done.0, Ok(Matching(done.0.servings, menu, vendors, date)))
  }

  // ---------------------------------------------------------------------------
  // The store, updated in place
  // ---------------------------------------------------------------------------

  class Store {
    var vendors: seq<Vendor>
    var services: seq<VendorService>
    var menuItems: seq<MenuItem>
    var servings: seq<Serving>
    var autoUpdates: seq<AutoUpdate>
    var nextVendorId: nat   // the next primary key the vendor table hands out

    function State(): Db
      reads this
    {
      Db(vendors, services, menuItems, servings, autoUpdates)
    }

    ghost predicate Valid()
      reads this
    {
      Consistent(State()) && forall v :: v in vendors ==> v.id < nextVendorId
    }

    constructor ()
      ensures Valid() && State() == Db([], [], [], [], [])
    {
      vendors, services, menuItems, servings, autoUpdates := [], [], [], [], [];
      nextVendorId := 0;
    }

    /** Inserts a vendor row under a fresh primary key. */
    method AddVendor(name: string, info: string) returns (v: Vendor)
      requires Valid()
      modifies this
      ensures Valid()
      ensures v.name == name && v.info == info
      ensures forall w :: w in old(vendors) ==> w.id != v.id
      ensures State() == old(State()).(vendors := old(vendors) + [v])
    {
      v := Vendor(nextVendorId, name, info);
      vendors := vendors + [v];
      nextVendorId := nextVendorId + 1;
    }

    /** VendorService.save: full_clean (clean, then the (timetable, vendor)
        unique-together check), and the insert when nothing failed. */
    method AddVendorService(tt: Id, v: Id, startDate: Option<Date>, endDate: Option<Date>)
      returns (r: Result<VendorService, Error>)
      requires Valid()
      modifies this
      ensures Valid() && nextVendorId == old(nextVendorId)
      ensures var s := VendorService(tt, v, startDate, endDate);
              var taken := exists i :: 0 <= i < |old(services)| && old(services)[i].timetable == tt && old(services)[i].vendor == v;
              var errs := VendorServiceClean(s) + (if taken then [NotUnique("timetable, vendor")] else []);
              if errs == [] then r == Ok(s) && State() == old(State()).(services := old(services) + [s])
              else r == Err(errs) && State() == old(State())
    {
      var s := VendorService(tt, v, startDate, endDate);
      var errs := VendorServiceClean(s);
      var i := 0;
      var taken := false;
      while i < |services|
        invariant 0 <= i <= |services|
        invariant taken <==> exists j :: 0 <= j < i && services[j].timetable == tt && services[j].vendor == v
      {
        if services[i].timetable == tt && services[i].vendor == v {
          taken := true;
        }
        i := i + 1;
      }
      if taken {
        errs := errs + [NotUnique("timetable, vendor")];
      }
      if errs == [] {
        services := services + [s];
        r := Ok(s);
      } else {
        r := Err(errs);
      }
    }

    /** MenuItem.save: full_clean (the cycle_day field validator, clean, then
        the unique-together check, which Django skips when cycle_day already
        failed), and the insert when nothing failed. */
    method AddMenuItem(tt: Timetable, cycleDay: nat, meal: Id, course: Id, dish: Id)
      returns (r: Result<MenuItem, Error>)
      requires Valid()
      modifies this
      ensures Valid() && nextVendorId == old(nextVendorId)
      ensures var m := MenuItem(tt.id, cycleDay, meal, course, dish);
              var errs := MenuItemClean(tt, cycleDay)
                + (if cycleDay >= 1 && m in old(menuItems) then [NotUnique("timetable, cycle_day, meal, course, dish")] else []);
              if errs == [] then r == Ok(m) && State() == old(State()).(menuItems := old(menuItems) + [m])
              else r == Err(errs) && State() == old(State())
    {
      var m := MenuItem(tt.id, cycleDay, meal, course, dish);
      var errs := MenuItemClean(tt, cycleDay);
      if cycleDay >= 1 && m in menuItems {
        errs := errs + [NotUnique("timetable, cycle_day, meal, course, dish")];
      }
      if errs == [] {
        menuItems := menuItems + [m];
        r := Ok(m);
      } else {
        r := Err(errs);
      }
    }

    /** Serving.objects.create: the database refuses a second row with the
        same (menu item, vendor, date) with an integrity error. */
    method CreateServing(s: Serving) returns (r: Result<Serving, Error>)
      requires Valid()
      modifies this
      ensures Valid() && nextVendorId == old(nextVendorId)
      ensures s in old(servings) ==> r == Err([IntegrityError]) && State() == old(State())
      ensures s !in old(servings) ==> r == Ok(s) && State() == old(State()).(servings := old(servings) + [s])
    {
      if s in servings {
        r := Err([IntegrityError]);
      } else {
        servings := servings + [s];
        r := Ok(s);
      }
    }

    /** ServingAutoUpdate.create_servings_if_not_exist. */
    method CreateServingsIfNotExist(tt: Timetable, v: Id, date: Date) returns (errs: seq<Error>)
      requires Valid() && tt.cycleLength >= 1
      modifies this
      ensures Valid() && nextVendorId == old(nextVendorId)
      ensures match CreateServingsEffect(old(State()), tt, v, date)
              case Ok(db) => errs == [] && State() == db
              case Err(e) => errs == e && State() == old(State())
    {
      if !IsVendorServing(services, tt.id, v, date) {
        return [VendorNotServing];
      }
      var menu := GetMenuItems(menuItems, tt, date);
      if menu.Err? {
        return menu.errors;
      }
      var items := menu.value;
      var i := 0;
      while i < |items|
        invariant 0 <= i <= |items|
        invariant Valid() && nextVendorId == old(nextVendorId)
        invariant State() == old(State()).(servings := servings)
        invariant InsertServings(servings, items[i..], v, date) == InsertServings(old(servings), items, v, date)
      {
        assert items[i..][1..] == items[i + 1..];
        // a refused insert means the serving already exists: it is ignored
        var created := CreateServing(Serving(items[i], v, date));
        i := i + 1;
      }
      errs := [];
    }

    /** ServingAutoUpdate.save. */
    method SaveAutoUpdate(tt: Timetable, v: Id, date: Date) returns (errs: seq<Error>)
      requires Valid() && tt.cycleLength >= 1
      modifies this
      ensures Valid() && nextVendorId == old(nextVendorId)
      ensures (State(), errs) == SaveAutoUpdateEffect(old(State()), tt, v, date)
    {
      var cleanErrs := CreateServingsIfNotExist(tt, v, date);
      var row := Row(tt, v, date);
      errs := cleanErrs + (if row in autoUpdates then [NotUnique("timetable, vendor, date")] else []);
      if errs == [] {
        autoUpdates := autoUpdates + [row];
      }
    }

    /** The vendor loop of ServingAutoUpdate.get_servings. */
    method MaterializeVendors(tt: Timetable, date: Date, vs: seq<Id>) returns (errs: seq<Error>)
      requires Valid() && tt.cycleLength >= 1
      modifies this
      ensures Valid() && nextVendorId == old(nextVendorId)
      ensures (State(), errs) == MaterializeEffect(old(State()), tt, date, vs)
    {
      var i := 0;
      while i < |vs|
        invariant 0 <= i <= |vs|
        invariant Valid() && nextVendorId == old(nextVendorId)
        invariant MaterializeEffect(State(), tt, date, vs[i..]) == MaterializeEffect(old(State()), tt, date, vs)
      {
        assert vs[i..][1..] == vs[i + 1..];
        if Row(tt, vs[i], date) !in autoUpdates {
          errs := SaveAutoUpdate(tt, vs[i], date);
          if errs != [] {
            return;
          }
        }
        i := i + 1;
      }
      errs := [];
    }

    /** ServingAutoUpdate.get_servings. */
    method GetServings(tt: Timetable, date: Date, vendor: Option<Id>) returns (r: Result<seq<Serving>, Error>)
      requires Valid() && tt.cycleLength >= 1
      modifies this
      ensures Valid() && nextVendorId == old(nextVendorId)
      ensures (State(), r) == GetServingsEffect(old(State()), tt, date, vendor)
    {
      if !tt.isActive || IsInactiveThisDay(tt, date) {
        return Err([TimetableInactive(date)]);
      }
      var vs: seq<Id>;
      if vendor.Some? {
        if !IsVendorServing(services, tt.id, vendor.value, date) {
          return Err([VendorNotServing]);
        }
        vs := [vendor.value];
      } else {
        vs := VendorIds(vendors);
      }
      var menu := GetMenuItems(menuItems, tt, date);
      if menu.Err? {
        return Err(menu.errors);
      }
      var errs := MaterializeVendors(tt, date, vs);
      if errs != [] {
        return Err(errs);
      }
      r := Ok(Matching(servings, menu.value, vs, date));
    }
  }
}

=== FILE: materializer_properties.dfy ===
/** What get_servings guarantees across calls: the store's integrity is kept,
    every vendor that was materialised gets the whole menu, a second identical
    call changes nothing and answers the same, a stale bookkeeping row stops
    materialisation, and the no-vendor path can fail part-way. */
module MaterializerProperties {
  import opened Wrappers
  import opened Timetables
  import opened Materializer

  // ---------------------------------------------------------------------------
  // The vendor loop
  // ---------------------------------------------------------------------------

  /** When every vendor already has its bookkeeping row, the loop writes
      nothing and succeeds. */
  lemma {:induction false} MaterializeAllBooked(db: Db, tt: Timetable, date: Date, vs: seq<Id>)
    requires tt.cycleLength >= 1
    requires forall v :: v in vs ==> Row(tt, v, date) in db.autoUpdates
    ensures MaterializeEffect(db, tt, date, vs) == (db, [])
  {
    if vs != [] {
      assert vs[0] in vs;
      MaterializeAllBooked(db, tt, date, vs[1..]);
    }
  }

  lemma InPrefixInWhole<T>(s: seq<T>, k: nat, x: T)
    requires k <= |s| && x in s[..k]
    ensures x in s
  {
    var i :| 0 <= i < k && s[..k][i] == x;
    assert s[i] == x;
  }

  /** After a successful loop every vendor has its bookkeeping row. */
  lemma {:induction false} MaterializeBooksEveryVendor(db: Db, tt: Timetable, date: Date, vs: seq<Id>)
    requires tt.cycleLength >= 1
    requires MaterializeEffect(db, tt, date, vs).1 == []
    ensures forall v :: v in vs ==> Row(tt, v, date) in MaterializeEffect(db, tt, date, vs).0.autoUpdates
    decreases |vs|
  {
    if vs != [] {
      var r := MaterializeEffect(db, tt, date, vs);
      var v0 := vs[0];
      if Row(tt, v0, date) in db.autoUpdates {
        MaterializeBooksEveryVendor(db, tt, date, vs[1..]);
        InPrefixInWhole(r.0.autoUpdates, |db.autoUpdates|, Row(tt, v0, date));
      } else {
        var saved := SaveAutoUpdateEffect(db, tt, v0, date);
        assert saved.1 == [];
        assert saved.0.autoUpdates == db.autoUpdates + [Row(tt, v0, date)];
        MaterializeBooksEveryVendor(saved.0, tt, date, vs[1..]);
        assert r == MaterializeEffect(saved.0, tt, date, vs[1..]);
        assert saved.0.autoUpdates[|db.autoUpdates|] == Row(tt, v0, date);
        assert r.0.autoUpdates[..|saved.0.autoUpdates|] == saved.0.autoUpdates;
        InPrefixInWhole(r.0.autoUpdates, |saved.0.autoUpdates|, Row(tt, v0, date));
      }
    }
  }

  /** After a successful loop, a vendor that had no bookkeeping row before has
      a serving for every item of the day's menu. */
  lemma {:induction false} MaterializeServesFreshVendor(db: Db, tt: Timetable, date: Date, vs: seq<Id>, v: Id)
    requires tt.cycleLength >= 1
    requires GetMenuItems(db.menuItems, tt, date).Ok?
    requires v in vs && Row(tt, v, date) !in db.autoUpdates
    requires MaterializeEffect(db, tt, date, vs).1 == []
    ensures forall m :: m in GetMenuItems(db.menuItems, tt, date).value ==>
      Serving(m, v, date) in MaterializeEffect(db, tt, date, vs).0.servings
    decreases |vs|
  {
    var menu := GetMenuItems(db.menuItems, tt, date).value;
    var r := MaterializeEffect(db, tt, date, vs);
    var v0 := vs[0];
    if Row(tt, v0, date) in db.autoUpdates {
      MaterializeServesFreshVendor(db, tt, date, vs[1..], v);
    } else {
      var saved := SaveAutoUpdateEffect(db, tt, v0, date);
      assert saved.1 == [];
      var created := CreateServingsEffect(db, tt, v0, date);
      if v0 == v {
        forall m | m in menu
          ensures Serving(m, v, date) in r.0.servings
        {
          assert Serving(m, v, date) in saved.0.servings[..|saved.0.servings|];
          InPrefixInWhole(r.0.servings, |saved.0.servings|, Serving(m, v, date));
        }
      } else {
        assert saved.0.autoUpdates == db.autoUpdates + [Row(tt, v0, date)];
        MaterializeServesFreshVendor(saved.0, tt, date, vs[1..], v);
      }
    }
  }

  /** Saving one bookkeeping row keeps the store's integrity. */
  lemma SaveAutoUpdateKeepsConsistency(db: Db, tt: Timetable, v: Id, date: Date)
    requires tt.cycleLength >= 1 && Consistent(db)
    ensures Consistent(SaveAutoUpdateEffect(db, tt, v, date).0)
  {
    var r := SaveAutoUpdateEffect(db, tt, v, date);
    var created := CreateServingsEffect(db, tt, v, date);
    if created.Ok? {
      var menu := GetMenuItems(db.menuItems, tt, date).value;
      assert created.value.servings == InsertServings(db.servings, menu, v, date);
    }
  }

  /** The whole vendor loop keeps the store's integrity, even when it stops
      at a failure. */
  lemma {:induction false} MaterializeKeepsConsistency(db: Db, tt: Timetable, date: Date, vs: seq<Id>)
    requires tt.cycleLength >= 1 && Consistent(db)
    ensures Consistent(MaterializeEffect(db, tt, date, vs).0)
    decreases |vs|
  {
    if vs != [] {
      if Row(tt, vs[0], date) in db.autoUpdates {
        MaterializeKeepsConsistency(db, tt, date, vs[1..]);
      } else {
        var saved := SaveAutoUpdateEffect(db, tt, vs[0], date);
        SaveAutoUpdateKeepsConsistency(db, tt, vs[0], date);
        if saved.1 == [] {
          MaterializeKeepsConsistency(saved.0, tt, date, vs[1..]);
        }
      }
    }
  }

  /** An unbooked vendor without tenure makes the loop fail, whatever its
      position: the save of its row raises in clean(). */
  lemma {:induction false} MaterializeFailsOnUntenured(db: Db, tt: Timetable, date: Date, vs: seq<Id>, v: Id)
    requires tt.cycleLength >= 1
    requires v in vs && Row(tt, v, date) !in db.autoUpdates
    requires !IsVendorServing(db.services, tt.id, v, date)
    ensures MaterializeEffect(db, tt, date, vs).1 != []
    decreases |vs|
  {
    var v0 := vs[0];
    if v0 == v {
      assert CreateServingsEffect(db, tt, v, date).Err?;
    } else {
      assert v in vs[1..];
      if Row(tt, v0, date) in db.autoUpdates {
        MaterializeFailsOnUntenured(db, tt, date, vs[1..], v);
      } else {
        var saved := SaveAutoUpdateEffect(db, tt, v0, date);
        if saved.1 == [] {
          assert saved.0.autoUpdates == db.autoUpdates + [Row(tt, v0, date)];
          MaterializeFailsOnUntenured(saved.0, tt, date, vs[1..], v);
        }
      }
    }
  }

  /** With the day's menu present, the loop succeeds when every vendor still
      to be booked has a tenure. */
  lemma {:induction false} MaterializeSucceedsWhenTenured(db: Db, tt: Timetable, date: Date, vs: seq<Id>)
    requires tt.cycleLength >= 1
    requires GetMenuItems(db.menuItems, tt, date).Ok?
    requires forall v :: v in vs && Row(tt, v, date) !in db.autoUpdates ==> IsVendorServing(db.services, tt.id, v, date)
    ensures MaterializeEffect(db, tt, date, vs).1 == []
    decreases |vs|
  {
    if vs != [] {
      var v0 := vs[0];
      assert forall v :: v in vs[1..] ==> v in vs;
      if Row(tt, v0, date) in db.autoUpdates {
        MaterializeSucceedsWhenTenured(db, tt, date, vs[1..]);
      } else {
        var saved := SaveAutoUpdateEffect(db, tt, v0, date);
        assert saved.1 == [];
        assert saved.0.autoUpdates == db.autoUpdates + [Row(tt, v0, date)];
        MaterializeSucceedsWhenTenured(saved.0, tt, date, vs[1..]);
      }
    }
  }

  /** The vendor loop writes nothing beyond what it must: a new serving is a
      serving of the day's menu, on the date, for a listed vendor that had no
      bookkeeping row; a new bookkeeping row is that of a listed vendor. */
  lemma {:induction false} MaterializeWritesOnlyFreshVendors(db: Db, tt: Timetable, date: Date, vs: seq<Id>)
    requires tt.cycleLength >= 1
    ensures var r := MaterializeEffect(db, tt, date, vs);
            && (forall s :: s in r.0.servings ==>
                  || s in db.servings
                  || (&& GetMenuItems(db.menuItems, tt, date).Ok?
                      && s.menuItem in GetMenuItems(db.menuItems, tt, date).value
                      && s.dateServed == date && s.vendor in vs
                      && Row(tt, s.vendor, date) !in db.autoUpdates))
            && (forall a :: a in r.0.autoUpdates ==>
                  a in db.autoUpdates || (a == Row(tt, a.vendor, date) && a.vendor in vs))
    decreases |vs|
  {
    if vs != [] {
      var v0 := vs[0];
      assert forall v :: v in vs[1..] ==> v in vs;
      if Row(tt, v0, date) in db.autoUpdates {
        MaterializeWritesOnlyFreshVendors(db, tt, date, vs[1..]);
      } else {
        var saved := SaveAutoUpdateEffect(db, tt, v0, date);
        var created := CreateServingsEffect(db, tt, v0, date);
        if created.Ok? {
          assert forall s :: s in saved.0.servings ==> s in created.value.servings;
        }
        if saved.1 == [] {
          assert saved.0.autoUpdates == db.autoUpdates + [Row(tt, v0, date)];
          MaterializeWritesOnlyFreshVendors(saved.0, tt, date, vs[1..]);
        }
      }
    }
  }

  /** The part-way failure of the loop in general: when the first vendor that
      would fail is vs[k] (no bookkeeping row, no tenure), the loop ends with
      exactly the writes of the vendors before it and the tenure error. */
  lemma {:induction false} MaterializeStopsAtUntenured(db: Db, tt: Timetable, date: Date, vs: seq<Id>, k: nat)
    requires tt.cycleLength >= 1
    requires GetMenuItems(db.menuItems, tt, date).Ok?
    requires k < |vs| && Row(tt, vs[k], date) !in db.autoUpdates
    requires !IsVendorServing(db.services, tt.id, vs[k], date)
    requires forall j :: 0 <= j < k ==>
               Row(tt, vs[j], date) in db.autoUpdates || IsVendorServing(db.services, tt.id, vs[j], date)
    ensures MaterializeEffect(db, tt, date, vs) == (MaterializeEffect(db, tt, date, vs[..k]).0, [VendorNotServing])
    decreases k
  {
    var v0 := vs[0];
    if k == 0 {
      assert CreateServingsEffect(db, tt, v0, date) == Err([VendorNotServing]);
      assert [VendorNotServing] + [] == [VendorNotServing];
      assert SaveAutoUpdateEffect(db, tt, v0, date) == (db, [VendorNotServing]);
    } else {
      assert vs[..k][1..] == vs[1..][..k - 1];
      assert vs[..k][0] == v0;
      if Row(tt, v0, date) in db.autoUpdates {
        MaterializeStopsAtUntenured(db, tt, date, vs[1..], k - 1);
      } else {
        var saved := SaveAutoUpdateEffect(db, tt, v0, date);
        assert saved.1 == [];
        assert saved.0.autoUpdates == db.autoUpdates + [Row(tt, v0, date)];
        assert vs[k] != v0;
        MaterializeStopsAtUntenured(saved.0, tt, date, vs[1..], k - 1);
      }
    }
  }

  /** With the day's menu present, the vendor loop fails exactly when some
      vendor it has to book has no tenure. */
  lemma MaterializeFailsIffUntenured(db: Db, tt: Timetable, date: Date, vs: seq<Id>)
    requires tt.cycleLength >= 1
    requires GetMenuItems(db.menuItems, tt, date).Ok?
    ensures MaterializeEffect(db, tt, date, vs).1 != [] <==>
      exists v :: v in vs && Row(tt, v, date) !in db.autoUpdates && !IsVendorServing(db.services, tt.id, v, date)
  {
    if exists v :: v in vs && Row(tt, v, date) !in db.autoUpdates && !IsVendorServing(db.services, tt.id, v, date) {
      var v :| v in vs && Row(tt, v, date) !in db.autoUpdates && !IsVendorServing(db.services, tt.id, v, date);
      MaterializeFailsOnUntenured(db, tt, date, vs, v);
    } else {
      MaterializeSucceedsWhenTenured(db, tt, date, vs);
    }
  }

  // ---------------------------------------------------------------------------
  // get_servings
  // ---------------------------------------------------------------------------

  /** get_servings never breaks a unique-together constraint: (menu item,
      vendor, date served) and (timetable, vendor, date) stay unique. */
  lemma GetServingsKeepsConsistency(db: Db, tt: Timetable, date: Date, vendor: Option<Id>)
    requires tt.cycleLength >= 1 && Consistent(db)
    ensures Consistent(GetServingsEffect(db, tt, date, vendor).0)
  {
    MaterializeKeepsConsistency(db, tt, date, ResolvedVendors(db, vendor));
  }

  /** A second identical call inserts nothing and returns the same servings. */
  lemma GetServingsIdempotent(db: Db, tt: Timetable, date: Date, vendor: Option<Id>)
    requires tt.cycleLength >= 1
    requires GetServingsEffect(db, tt, date, vendor).1.Ok?
    ensures var first := GetServingsEffect(db, tt, date, vendor);
            GetServingsEffect(first.0, tt, date, vendor) == first
  {
    var first := GetServingsEffect(db, tt, date, vendor);
    var vs := ResolvedVendors(db, vendor);
    var menu := GetMenuItems(db.menuItems, tt, date).value;
    var done := MaterializeEffect(db, tt, date, vs);
    assert done.1 == [] && first.0 == done.0;
    MaterializeBooksEveryVendor(db, tt, date, vs);
    assert ResolvedVendors(first.0, vendor) == vs;
    MaterializeAllBooked(first.0, tt, date, vs);
  }

  /** A vendor the call materialised (it had no bookkeeping row) is returned
      with a serving for every item of the day's menu. */
  lemma GetServingsServesFreshVendor(db: Db, tt: Timetable, date: Date, vendor: Option<Id>, v: Id)
    requires tt.cycleLength >= 1
    requires GetServingsEffect(db, tt, date, vendor).1.Ok?
    requires v in ResolvedVendors(db, vendor) && Row(tt, v, date) !in db.autoUpdates
    ensures forall m :: m in GetMenuItems(db.menuItems, tt, date).value ==>
      Serving(m, v, date) in GetServingsEffect(db, tt, date, vendor).1.value
  {
    var vs := ResolvedVendors(db, vendor);
    MaterializeServesFreshVendor(db, tt, date, vs, v);
  }

  /** Once the bookkeeping row of (timetable, vendor, date) exists, a call for
      that vendor writes nothing: menu items added since get no servings,
      though the answer is still filtered by the current menu. */
  lemma GetServingsStaleBookkeeping(db: Db, tt: Timetable, date: Date, v: Id)
    requires tt.cycleLength >= 1
    requires Row(tt, v, date) in db.autoUpdates
    ensures var r := GetServingsEffect(db, tt, date, Some(v));
            && r.0 == db
            && (r.1.Ok? ==> r.1.value == Matching(db.servings, GetMenuItems(db.menuItems, tt, date).value, [v], date))
  {
    MaterializeAllBooked(db, tt, date, [v]);
  }

  /** A menu item added after a vendor's bookkeeping row was written never
      gets a serving for that vendor and date. */
  lemma {:induction false} StaleBookkeepingMissesNewItem(db: Db, tt: Timetable, date: Date, v: Id, m: MenuItem)
    requires tt.cycleLength >= 1
    requires Row(tt, v, date) in db.autoUpdates && Serving(m, v, date) !in db.servings
    ensures var r := GetServingsEffect(db, tt, date, Some(v));
            r.1.Ok? ==> Serving(m, v, date) !in r.1.value
  {
    GetServingsStaleBookkeeping(db, tt, date, v);
  }

  /** Without a vendor, get_servings raises when any vendor row that has no
      bookkeeping row for the date lacks a tenure on the timetable. */
  lemma GetServingsFailsOnUntenuredVendor(db: Db, tt: Timetable, date: Date, v: Id)
    requires tt.cycleLength >= 1
    requires v in VendorIds(db.vendors) && Row(tt, v, date) !in db.autoUpdates
    requires !IsVendorServing(db.services, tt.id, v, date)
    ensures GetServingsEffect(db, tt, date, None).1.Err?
  {
    MaterializeFailsOnUntenured(db, tt, date, VendorIds(db.vendors), v);
  }

  // ---------------------------------------------------------------------------
  // Counting the rows of one vendor
  // ---------------------------------------------------------------------------

  lemma {:induction false} DistinctSetSize<T>(s: seq<T>)
    requires NoDuplicates(s)
    ensures |set x | x in s| == |s|
  {
    if s != [] {
      DistinctSetSize(s[1..]);
      assert (set x | x in s) == {s[0]} + (set x | x in s[1..]);
      assert s[0] !in (set x | x in s[1..]);
    }
  }

  lemma SameMembersSameLength<T>(a: seq<T>, b: seq<T>)
    requires NoDuplicates(a) && NoDuplicates(b)
    requires forall x :: x in a <==> x in b
    ensures |a| == |b|
  {
    DistinctSetSize(a);
    DistinctSetSize(b);
    assert (set x | x in a) == (set x | x in b);
  }

  /** The servings of one vendor on one date for a menu, one per item. */
  function ServingsFor(menu: seq<MenuItem>, v: Id, date: Date): (r: seq<Serving>)
    ensures |r| == |menu|
    ensures forall s :: s in r <==> s.menuItem in menu && s.vendor == v && s.dateServed == date
    ensures NoDuplicates(menu) ==> NoDuplicates(r)
  {
    var r := seq(|menu|, i requires 0 <= i < |menu| => Serving(menu[i], v, date));
    assert forall s: Serving :: s.menuItem in menu && s.vendor == v && s.dateServed == date ==> s in r by {
      forall s: Serving | s.menuItem in menu && s.vendor == v && s.dateServed == date
        ensures s in r
      {
        var i :| 0 <= i < |menu| && menu[i] == s.menuItem;
        assert r[i] == s;
      }
    }
    r
  }

  /** For a vendor with a tenure and no bookkeeping row yet, a successful call
      returns exactly one serving per menu item. */
  lemma GetServingsCountForFreshVendor(db: Db, tt: Timetable, date: Date, v: Id)
    requires tt.cycleLength >= 1 && Consistent(db)
    requires Row(tt, v, date) !in db.autoUpdates
    requires GetServingsEffect(db, tt, date, Some(v)).1.Ok?
    ensures |GetServingsEffect(db, tt, date, Some(v)).1.value| == |GetMenuItems(db.menuItems, tt, date).value|
  {
    var r := GetServingsEffect(db, tt, date, Some(v));
    var menu := GetMenuItems(db.menuItems, tt, date).value;
    GetServingsServesFreshVendor(db, tt, date, Some(v), v);
    GetServingsKeepsConsistency(db, tt, date, Some(v));
    var expected := ServingsFor(menu, v, date);
    assert r.1.value == Matching(r.0.servings, menu, [v], date);
    SameMembersSameLength(r.1.value, expected);
  }

  // ---------------------------------------------------------------------------
  // The no-vendor path
  // ---------------------------------------------------------------------------

  /** Without a vendor, get_servings walks every vendor row. A vendor without
      tenure makes the call fail, and the vendor handled before it keeps its
      serving and its bookkeeping row. */
  lemma NoVendorPathFailsPartWay()
    ensures
      var tt := Timetable(1, "Main", 14, 2, 736238, "", true);
      var item := MenuItem(1, 2, 1, 1, 1);
      var db := Db([Vendor(0, "A", ""), Vendor(1, "B", "")],
                   [VendorService(1, 0, None, None)], [item], [], []);
      GetServingsEffect(db, tt, 736238, None) ==
        (db.(servings := [Serving(item, 0, 736238)], autoUpdates := [AutoUpdate(1, 0, 736238)]),
         Err([VendorNotServing]))
  {
    var tt := Timetable(1, "Main", 14, 2, 736238, "", true);
    var item := MenuItem(1, 2, 1, 1, 1);
    var db := Db([Vendor(0, "A", ""), Vendor(1, "B", "")],
                 [VendorService(1, 0, None, None)], [item], [], []);
    CycleDayAtReference(tt);
    assert Weekday(736238) == 5;
    assert CoversFromEnd(db.services[0], 1, 0, 736238);
    assert !IsVendorServing(db.services, 1, 1, 736238);
    assert [item][1..] == [];
    assert MenuItemsOn(db.menuItems, 1, 2) == [item];
    assert GetMenuItems(db.menuItems, tt, 736238) == Ok([item]);
    assert [Serving(item, 0, 736238)][1..] == [];
    assert InsertServings([], [item], 0, 736238) == [Serving(item, 0, 736238)];
    assert ResolvedVendors(db, None) == [0, 1];
    var db1 := db.(servings := [Serving(item, 0, 736238)], autoUpdates := [AutoUpdate(1, 0, 736238)]);
    assert CreateServingsEffect(db, tt, 0, 736238) == Ok(db.(servings := [Serving(item, 0, 736238)]));
    assert [] + [AutoUpdate(1, 0, 736238)] == [AutoUpdate(1, 0, 736238)];
    assert SaveAutoUpdateEffect(db, tt, 0, 736238) == (db1, []);
    assert CreateServingsEffect(db1, tt, 1, 736238) == Err([VendorNotServing]);
    assert Row(tt, 1, 736238) !in db1.autoUpdates;
    assert [VendorNotServing] + [] == [VendorNotServing];
    assert SaveAutoUpdateEffect(db1, tt, 1, 736238) == (db1, [VendorNotServing]);
    assert [0, 1][1..] == [1];
  }
}

=== FILE: reviews.dfy ===
/** Reviews of servings: a rating from five choices and a comment, at most one
    review per (user, serving) pair. */
module Reviews {
  import opened Wrappers

  type Id = nat

  /** The rating choices, from worst to best. */
  datatype Rating = Terrible | Poor | Fair | Good | Excellent

  /** The stored code of a rating. */
  function Code(r: Rating): (c: int)
    ensures 1 <= c <= 5
  {
    match r
    case Terrible => 1
    case Poor => 2
    case Fair => 3
    case Good => 4
    case Excellent => 5
  }

  /** The label shown for a rating. */
  function Label(r: Rating): string {
    match r
    case Terrible => "TERRIBLE"
    case Poor => "POOR"
    case Fair => "FAIR"
    case Good => "GOOD"
    case Excellent => "EXCELLENT"
  }

  /** The rating a stored code stands for, if it is one of the choices. */
  function FromCode(c: int): (r: Option<Rating>)
    ensures r.Some? <==> 1 <= c <= 5
    ensures r.Some? ==> Code(r.value) == c
  {
    if c == 1 then Some(Terrible)
    else if c == 2 then Some(Poor)
    else if c == 3 then Some(Fair)
    else if c == 4 then Some(Good)
    else if c == 5 then Some(Excellent)
    else None
  }

  /** Codes and ratings are in one-to-one correspondence, ordered alike. */
  lemma RatingCodesBijective(a: Rating, b: Rating)
    ensures FromCode(Code(a)) == Some(a)
    ensures Code(a) == Code(b) ==> a == b
    ensures Code(Terrible) < Code(Poor) < Code(Fair) < Code(Good) < Code(Excellent)
  {
  }

  /** The choices of the value field, as (code, label) pairs, best first. */
  const Choices: seq<(int, string)> :=
    [(5, "EXCELLENT"), (4, "GOOD"), (3, "FAIR"), (2, "POOR"), (1, "TERRIBLE")]

  /** A code is a choice exactly when it names a rating, and the rating's
      label is the one the choices pair with that code. */
  lemma ChoicesMatchRatings(c: int)
    ensures FromCode(c).Some? <==> exists i :: 0 <= i < |Choices| && Choices[i].0 == c
    ensures forall i :: 0 <= i < |Choices| && Choices[i].0 == c ==>
              FromCode(c).Some? && Label(FromCode(c).value) == Choices[i].1
  {
    if 1 <= c <= 5 {
      assert Choices[5 - c].0 == c;
    }
  }

  datatype Review = Review(user: Id, serving: Id, value: int, comment: string)

  datatype ReviewError =
    | InvalidChoice(value: int)   // the choices validator on value
    | AlreadyReviewed             // the (user, serving) unique-together check

  /** Some stored review is by `user` of `serving`. */
  predicate Reviewed(reviews: seq<Review>, user: Id, serving: Id) {
    exists i :: 0 <= i < |reviews| && reviews[i].user == user && reviews[i].serving == serving
  }

  /** What the review table holds: valid ratings, one review per pair. */
  predicate ValidReviews(reviews: seq<Review>) {
    && (forall i :: 0 <= i < |reviews| ==> 1 <= reviews[i].value <= 5)
    && (forall i, j :: 0 <= i < j < |reviews| ==>
          (reviews[i].user, reviews[i].serving) != (reviews[j].user, reviews[j].serving))
  }

  /** Creating a review: full_clean (the choices validator, then the
      unique-together check, both reported), then the insert. */
  function CreateEffect(reviews: seq<Review>, r: Review): (res: Result<seq<Review>, ReviewError>)
    ensures res.Ok? <==> 1 <= r.value <= 5 && !Reviewed(reviews, r.user, r.serving)
    ensures res.Ok? ==> res.value == reviews + [r]
    ensures res.Err? ==> res.errors != []
    ensures FromCode(r.value).None? ==> res.Err? && InvalidChoice(r.value) in res.errors
    ensures Reviewed(reviews, r.user, r.serving) ==> res.Err? && AlreadyReviewed in res.errors
  {
    var errs := (if FromCode(r.value).None? then [InvalidChoice(r.value)] else [])
      + (if Reviewed(reviews, r.user, r.serving) then [AlreadyReviewed] else []);
    if errs == [] then Ok(reviews + [r]) else Err(errs)
  }

  /** An accepted create keeps the table's invariant. */
  lemma CreateKeepsValid(reviews: seq<Review>, r: Review)
    requires ValidReviews(reviews)
    requires CreateEffect(reviews, r).Ok?
    ensures ValidReviews(CreateEffect(reviews, r).value)
  {
    var after := reviews + [r];
    forall i, j | 0 <= i < j < |after|
      ensures (after[i].user, after[i].serving) != (after[j].user, after[j].serving)
    {
      if j == |reviews| {
        assert !(reviews[i].user == r.user && reviews[i].serving == r.serving);
      }
    }
  }

  /** Uniqueness is on the pair only: with a review of (u, s) stored, the same
      user may review another serving and another user the same serving, but
      (u, s) a second time is refused. */
  lemma UniquenessIsOnThePair(u: Id, s: Id, other: Id)
    requires other != u && other != s
    ensures var stored := [Review(u, s, 4, "")];
            && CreateEffect(stored, Review(u, other, 2, "")).Ok?
            && CreateEffect(stored, Review(other, s, 2, "")).Ok?
            && CreateEffect(stored, Review(u, s, 2, "")) == Err([AlreadyReviewed])
  {
    var stored := [Review(u, s, 4, "")];
    assert stored[0].user == u && stored[0].serving == s;
  }

  /** The review table, updated in place. */
  class ReviewTable {
    var reviews: seq<Review>

    ghost predicate Valid()
      reads this
    {
      ValidReviews(reviews)
    }

    constructor ()
      ensures Valid() && reviews == []
    {
      reviews := [];
    }

    /** Review.full_clean followed by Review.save. A refused create leaves the
        table as it was; an accepted one adds exactly that review. */
    method Create(user: Id, serving: Id, value: int, comment: string) returns (res: Result<Review, ReviewError>)
      requires Valid()
      modifies this
      ensures Valid()
      ensures var r := Review(user, serving, value, comment);
              match CreateEffect(old(reviews), r)
              case Ok(after) => res == Ok(r) && reviews == after
              case Err(errs) => res == Err(errs) && reviews == old(reviews)
    {
      var r := Review(user, serving, value, comment);
      var outcome := CreateEffect(reviews, r);
      if outcome.Ok? {
        CreateKeepsValid(reviews, r);
        reviews := outcome.value;
        res := Ok(r);
      } else {
        res := Err(outcome.errors);
      }
    }
  }
}

=== FILE: timetables.dfy ===
/** Entities of the timetable application, their write-time validators, the
    cycle-day calculator and the vendor-tenure queries. */
module Timetables {
  import opened Wrappers

  /** A calendar date as its proleptic Gregorian ordinal (day 1 is 1 January
      of year 1, a Monday), so the difference of two dates in whole days is
      the difference of their ordinals. */
  type Date = int

  /** A database primary key. */
  type Id = nat

  /** The validation errors the application raises. */
  datatype Error =
    | BelowMinimum(field: string)            // MinValueValidator(1) on a field
    | RefCycleDayExceedsCycleLength          // Timetable.clean
    | CycleDayOutOfRange(cycleLength: nat)   // MenuItem.clean
    | StartNotBeforeEnd                      // Meal.clean, Event.clean
    | EndNotAfterStart                       // VendorService.clean
    | DateBeforeReference(refCycleDate: Date) // calculate_cycle_day
    | TimetableInactive(date: Date)          // get_servings
    | VendorNotServing                       // verify_vendor_is_serving
    | NoMenuItems                            // get_menu_items
    | NotUnique(constraint: string)          // validate_unique on a unique-together
    | IntegrityError                         // the database refused a duplicate row

  datatype Timetable = Timetable(
    id: Id,
    name: string,
    cycleLength: nat,
    refCycleDay: nat,
    refCycleDate: Date,
    inactiveWeekdays: string,   // a comma-separated list such as "5,6"
    isActive: bool)

  datatype Vendor = Vendor(id: Id, name: string, info: string)

  /** A vendor's tenure on a timetable; a missing date is an open end. */
  datatype VendorService = VendorService(
    timetable: Id, vendor: Id, startDate: Option<Date>, endDate: Option<Date>)

  /** A planned (meal, course, dish) for one cycle day of a timetable. The
      unique-together tuple is the item's identity. */
  datatype MenuItem = MenuItem(timetable: Id, cycleDay: nat, meal: Id, course: Id, dish: Id)

  /** A menu item served by a vendor on a date; the triple is unique. */
  datatype Serving = Serving(menuItem: MenuItem, vendor: Id, dateServed: Date)

  /** Bookkeeping row: materialisation was done for (timetable, vendor, date). */
  datatype AutoUpdate = AutoUpdate(timetable: Id, vendor: Id, date: Date)

  // ---------------------------------------------------------------------------
  // Write-time validators
  // ---------------------------------------------------------------------------

  /** What a stored timetable satisfies: the cycle is at least one day long
      and the reference day lies inside it. */
  predicate ValidTimetable(t: Timetable) {
    1 <= t.refCycleDay <= t.cycleLength
  }

  /** Timetable.full_clean: the field validators, then clean(), which compares
      the two numbers only when both are non-zero. */
  function TimetableFullClean(t: Timetable): (errs: seq<Error>)
    ensures errs == [] <==> ValidTimetable(t)
    ensures 1 <= t.cycleLength < t.refCycleDay ==> RefCycleDayExceedsCycleLength in errs
  {
    (if t.cycleLength < 1 then [BelowMinimum("cycle_length")] else [])
    + (if t.refCycleDay < 1 then [BelowMinimum("ref_cycle_day")] else [])
    + (if t.refCycleDay != 0 && t.cycleLength != 0 && t.refCycleDay > t.cycleLength
       then [RefCycleDayExceedsCycleLength] else [])
  }

  /** MenuItem.full_clean without the uniqueness check: the field validator on
      cycle_day, then clean(), which compares with the timetable's cycle
      length when both are non-zero. */
  function MenuItemClean(t: Timetable, cycleDay: nat): (errs: seq<Error>)
    ensures t.cycleLength >= 1 ==> (errs == [] <==> 1 <= cycleDay <= t.cycleLength)
    ensures 1 <= t.cycleLength < cycleDay ==> CycleDayOutOfRange(t.cycleLength) in errs
  {
    (if cycleDay < 1 then [BelowMinimum("cycle_day")] else [])
    + (if cycleDay != 0 && t.cycleLength != 0 && cycleDay > t.cycleLength
       then [CycleDayOutOfRange(t.cycleLength)] else [])
  }

  /** A tenure window that VendorService.clean accepts. */
  predicate TenureWindowOk(s: VendorService) {
    s.startDate.Some? && s.endDate.Some? ==> s.startDate.value < s.endDate.value
  }

  /** VendorService.clean: when both dates are set, the end must come after
      the start; an open end or an open start is always accepted. */
  function VendorServiceClean(s: VendorService): (errs: seq<Error>)
    ensures errs == [] <==> TenureWindowOk(s)
    ensures errs != [] ==> s.endDate.value <= s.startDate.value
  {
    if s.startDate.Some? && s.endDate.Some? && s.endDate.value <= s.startDate.value
    then [EndNotAfterStart] else []
  }

  /** Meal.clean (times of day) and, with the same rule, Event.clean (moments):
      when both ends are set, the start must come strictly first. */
  function IntervalClean(start: Option<int>, end: Option<int>): (errs: seq<Error>)
    ensures errs == [] <==> (start.Some? && end.Some? ==> start.value < end.value)
  {
    if start.Some? && end.Some? && start.value >= end.value then [StartNotBeforeEnd] else []
  }

  // ---------------------------------------------------------------------------
  // Cycle arithmetic
  // ---------------------------------------------------------------------------

  /** Timetable.calculate_cycle_day: the 1-based position of `date` in the
      repeating cycle, counted from the reference date. Dates before the
      reference date are refused. */
  function CalculateCycleDay(t: Timetable, date: Date): (r: Result<nat, Error>)
    requires t.cycleLength >= 1
    ensures r.Err? <==> date < t.refCycleDate
    ensures r.Err? ==> r.errors == [DateBeforeReference(t.refCycleDate)]
    ensures r.Ok? ==> 1 <= r.value <= t.cycleLength
    ensures r.Ok? ==> (r.value - t.refCycleDay - (date - t.refCycleDate)) % t.cycleLength == 0
  {
    var daysInterval := date - t.refCycleDate;
    if daysInterval < 0 then
      Err([DateBeforeReference(t.refCycleDate)])
    else
      var cycleDay := ((daysInterval % t.cycleLength) + t.refCycleDay) % t.cycleLength;
      CycleDayCongruent(daysInterval, t.refCycleDay, t.cycleLength);
      Ok(if cycleDay == 0 then t.cycleLength else cycleDay)
  }

  /** Division by a positive number has a unique quotient and remainder. */
  lemma ModUnique(a: int, n: int, q: int, r: int)
    requires n >= 1 && a == n * q + r && 0 <= r < n
    ensures a % n == r
  {
    var t := q - a / n;
    assert n * t == a % n - r;
  }

  /** The stored arithmetic of calculate_cycle_day lands on a number
      congruent to the reference day plus the elapsed days. */
  lemma CycleDayCongruent(k: int, ref: int, n: int)
    requires n >= 1 && k >= 0
    ensures var c := ((k % n) + ref) % n;
            (c - ref - k) % n == 0 && (c == 0 ==> (n - ref - k) % n == 0)
  {
    var c := ((k % n) + ref) % n;
    var s := (k % n) + ref;
    assert k == n * (k / n) + k % n;
    assert s == n * (s / n) + c;
    var q := -(k / n) - s / n;
    assert c - ref - k == n * q;
    ModUnique(c - ref - k, n, q, 0);
    if c == 0 {
      ModUnique(n - ref - k, n, q + 1, 0);
    }
  }

  /** Two numbers of the same residue that lie in a window of n values are equal. */
  lemma SameResidueInWindow(x: int, y: int, n: int)
    requires n >= 1 && (x - y) % n == 0 && -n < x - y < n
    ensures x == y
  {
    var d := (x - y) / n;
    assert x - y == n * d;
  }

  /** Congruence is preserved by subtraction. */
  lemma ResidueDifference(a: int, b: int, n: int)
    requires n >= 1 && a % n == 0 && b % n == 0
    ensures (a - b) % n == 0
  {
    assert a == n * (a / n);
    assert b == n * (b / n);
    assert a - b == n * (a / n - b / n);
    ModUnique(a - b, n, a / n - b / n, 0);
  }

  /** The cycle day is the ONLY number in 1..cycle_length congruent to the
      reference day plus the elapsed days: an independent definition. */
  lemma {:induction false} CycleDayIsUniqueResidue(t: Timetable, date: Date, x: int)
    requires t.cycleLength >= 1 && date >= t.refCycleDate
    requires 1 <= x <= t.cycleLength
    requires (x - t.refCycleDay - (date - t.refCycleDate)) % t.cycleLength == 0
    ensures CalculateCycleDay(t, date) == Ok(x)
  {
    var r := CalculateCycleDay(t, date).value;
    var k := date - t.refCycleDate;
    ResidueDifference(x - t.refCycleDay - k, r - t.refCycleDay - k, t.cycleLength);
    assert (x - t.refCycleDay - k) - (r - t.refCycleDay - k) == x - r;
    SameResidueInWindow(x, r, t.cycleLength);
  }

  /** The reference date maps back to the reference day. */
  lemma CycleDayAtReference(t: Timetable)
    requires ValidTimetable(t)
    ensures CalculateCycleDay(t, t.refCycleDate) == Ok(t.refCycleDay)
  {
    assert (t.refCycleDay - t.refCycleDay - 0) % t.cycleLength == 0;
    CycleDayIsUniqueResidue(t, t.refCycleDate, t.refCycleDay);
  }

  /** The mapping repeats with period cycle_length. */
  lemma CycleDayPeriodic(t: Timetable, date: Date)
    requires t.cycleLength >= 1 && date >= t.refCycleDate
    ensures CalculateCycleDay(t, date + t.cycleLength) == CalculateCycleDay(t, date)
  {
    var n := t.cycleLength;
    var k := date - t.refCycleDate;
    var r := CalculateCycleDay(t, date).value;
    var a := r - t.refCycleDay - k;
    assert a == n * (a / n);
    assert r - t.refCycleDay - (k + n) == n * (a / n - 1);
    ModUnique(r - t.refCycleDay - (k + n), n, a / n - 1, 0);
    CycleDayIsUniqueResidue(t, date + n, r);
  }

  /** Each following day advances the cycle day by one, wrapping from
      cycle_length back to 1. */
  lemma CycleDayNext(t: Timetable, date: Date)
    requires t.cycleLength >= 1 && date >= t.refCycleDate
    ensures var r := CalculateCycleDay(t, date).value;
            CalculateCycleDay(t, date + 1) == Ok(if r == t.cycleLength then 1 else r + 1)
  {
    var n := t.cycleLength;
    var k := date - t.refCycleDate;
    var r := CalculateCycleDay(t, date).value;
    var next := if r == n then 1 else r + 1;
    var a := r - t.refCycleDay - k;
    assert a == n * (a / n);
    var q := if r == n then a / n - 1 else a / n;
    assert next - t.refCycleDay - (k + 1) == n * q;
    ModUnique(next - t.refCycleDay - (k + 1), n, q, 0);
    CycleDayIsUniqueResidue(t, date + 1, next);
  }

  /** The worked example of a 14-day cycle whose day 2 fell on 2016-10-01
      (ordinal 736238): 2016-11-23, -24 and -25 are days 13, 14 and 1, and
      2016-09-30 is refused. */
  lemma FourteenDayCycleExample()
    ensures var t := Timetable(1, "Main", 14, 2, 736238, "", true);
            && CalculateCycleDay(t, 736291) == Ok(13)
            && CalculateCycleDay(t, 736292) == Ok(14)
            && CalculateCycleDay(t, 736293) == Ok(1)
            && CalculateCycleDay(t, 736237).Err?
  {
  }

  // ---------------------------------------------------------------------------
  // Weekdays
  // ---------------------------------------------------------------------------

  /** date.weekday(): Monday is 0 and Sunday is 6. */
  function Weekday(d: Date): (w: int)
    ensures 0 <= w <= 6
  {
    (d + 6) % 7
  }

  /** The decimal digit of a weekday number. */
  function DigitChar(w: int): char
    requires 0 <= w <= 9
  {
    ['0', '1', '2', '3', '4', '5', '6', '7', '8', '9'][w]
  }

  /** Timetable.is_timetable_inactive_this_day: the weekday's digit, as a
      one-character string, occurs somewhere in inactive_weekdays. */
  predicate IsInactiveThisDay(t: Timetable, date: Date) {
    DigitChar(Weekday(date)) in t.inactiveWeekdays
  }

  /** A comma-separated list of weekday numbers, as an administrator writes it. */
  function CommaJoin(ws: seq<int>): (s: string)
    requires forall i :: 0 <= i < |ws| ==> 0 <= ws[i] <= 9
  {
    if ws == [] then ""
    else if |ws| == 1 then [DigitChar(ws[0])]
    else [DigitChar(ws[0]), ','] + CommaJoin(ws[1..])
  }

  lemma DigitCharInjective(a: int, b: int)
    requires 0 <= a <= 9 && 0 <= b <= 9 && DigitChar(a) == DigitChar(b)
    ensures a == b
  {
  }

  /** For a list of single-digit entries, the substring test is exactly list
      membership of the weekday. */
  lemma {:induction false} InactiveIffListed(ws: seq<int>, w: int)
    requires forall i :: 0 <= i < |ws| ==> 0 <= ws[i] <= 9
    requires 0 <= w <= 6
    ensures DigitChar(w) in CommaJoin(ws) <==> w in ws
  {
    if ws == [] {
    } else if |ws| == 1 {
      if DigitChar(w) in CommaJoin(ws) {
        DigitCharInjective(w, ws[0]);
      }
    } else {
      InactiveIffListed(ws[1..], w);
      var s := CommaJoin(ws);
      assert s == [DigitChar(ws[0]), ','] + CommaJoin(ws[1..]);
      if DigitChar(w) in s {
        if DigitChar(w) == DigitChar(ws[0]) {
          DigitCharInjective(w, ws[0]);
        } else {
          assert DigitChar(w) in CommaJoin(ws[1..]);
        }
      } else {
        assert DigitChar(w) != DigitChar(ws[0]);
        assert DigitChar(w) !in CommaJoin(ws[1..]);
        assert w !in ws[1..];
      }
    }
  }

  /** An entry written with two digits is read digit by digit: with "10" the
      timetable is inactive on Mondays (0) and Tuesdays (1). */
  lemma TwoDigitEntryMarksEachDigit(t: Timetable)
    requires t.inactiveWeekdays == "10"
    ensures IsInactiveThisDay(t, 736233)   // 2016-09-26, a Monday
    ensures IsInactiveThisDay(t, 736234)   // 2016-09-27, a Tuesday
    ensures !IsInactiveThisDay(t, 736235)  // 2016-09-28, a Wednesday
  {
    assert Weekday(736233) == 0;
    assert Weekday(736234) == 1;
    assert Weekday(736235) == 2;
    assert t.inactiveWeekdays[1] == '0';
    assert t.inactiveWeekdays[0] == '1';
  }

  // ---------------------------------------------------------------------------
  // Vendor tenure
  // ---------------------------------------------------------------------------

  /** The condition Vendor.is_vendor_serving puts on one tenure row: it is for
      this timetable and vendor, and its end is open or not before the date. */
  predicate CoversFromEnd(s: VendorService, tt: Id, v: Id, date: Date) {
    s.timetable == tt && s.vendor == v && (s.endDate.None? || s.endDate.value >= date)
  }

  /** Vendor.is_vendor_serving: some tenure row covers the date from its end.
      The start date is never looked at. */
  predicate IsVendorServing(services: seq<VendorService>, tt: Id, v: Id, date: Date) {
    exists i :: 0 <= i < |services| && CoversFromEnd(services[i], tt, v, date)
  }

  /** The condition Timetable.get_vendors puts on one tenure row: both dates
      are set (a comparison with an unset date is false) and bracket the date. */
  predicate Brackets(s: VendorService, tt: Id, v: Id, date: Date) {
    && s.timetable == tt && s.vendor == v
    && s.startDate.Some? && s.startDate.value <= date
    && s.endDate.Some? && date <= s.endDate.value
  }

  predicate HasBracketingTenure(services: seq<VendorService>, tt: Id, v: Id, date: Date) {
    exists i :: 0 <= i < |services| && Brackets(services[i], tt, v, date)
  }

  /** Timetable.get_vendors: the vendors, in table order, with a closed
      tenure on this timetable whose window contains the date. */
  function GetVendors(vendors: seq<Vendor>, services: seq<VendorService>, tt: Id, date: Date)
    : (r: seq<Id>)
    ensures forall id :: id in r <==>
      exists v :: v in vendors && v.id == id && HasBracketingTenure(services, tt, id, date)
    ensures |r| <= |vendors|
  {
    if vendors == [] then []
    else
      var rest := GetVendors(vendors[1..], services, tt, date);
      assert forall v :: v in vendors[1..] ==> v in vendors;
      if HasBracketingTenure(services, tt, vendors[0].id, date) then [vendors[0].id] + rest
      else rest
  }

  /** Every vendor get_vendors lists also passes is_vendor_serving. */
  lemma GetVendorsAreServing(vendors: seq<Vendor>, services: seq<VendorService>, tt: Id, date: Date, id: Id)
    requires id in GetVendors(vendors, services, tt, date)
    ensures IsVendorServing(services, tt, id, date)
  {
    var v :| v in vendors && v.id == id && HasBracketingTenure(services, tt, id, date);
    var i :| 0 <= i < |services| && Brackets(services[i], tt, id, date);
    assert CoversFromEnd(services[i], tt, id, date);
  }

  /** The two tenure checks disagree: an open-ended tenure makes a vendor
      serving, yet get_vendors leaves the vendor out. */
  lemma OpenEndedTenureOnlyServes(date: Date)
    ensures var services := [VendorService(1, 7, Some(date - 30), None)];
            && IsVendorServing(services, 1, 7, date)
            && GetVendors([Vendor(7, "Vendor", "")], services, 1, date) == []
  {
    var services := [VendorService(1, 7, Some(date - 30), None)];
    assert CoversFromEnd(services[0], 1, 7, date);
    assert !Brackets(services[0], 1, 7, date);
  }

  /** is_vendor_serving never consults the start date: a tenure that only
      starts after the date still counts. */
  lemma ServingIgnoresStartDate(services: seq<VendorService>, i: nat, newStart: Option<Date>, tt: Id, v: Id, date: Date)
    requires i < |services|
    ensures IsVendorServing(services[i := services[i].(startDate := newStart)], tt, v, date)
        <==> IsVendorServing(services, tt, v, date)
  {
    var changed := services[i := services[i].(startDate := newStart)];
    if IsVendorServing(services, tt, v, date) {
      var j :| 0 <= j < |services| && CoversFromEnd(services[j], tt, v, date);
      assert CoversFromEnd(changed[j], tt, v, date);
    }
    if IsVendorServing(changed, tt, v, date) {
      var j :| 0 <= j < |changed| && CoversFromEnd(changed[j], tt, v, date);
      assert CoversFromEnd(services[j], tt, v, date);
    }
  }

  /** A vendor serving on a date is serving on every earlier date too. */
  lemma ServingIsDownwardClosed(services: seq<VendorService>, tt: Id, v: Id, date: Date, earlier: Date)
    requires IsVendorServing(services, tt, v, date) && earlier <= date
    ensures IsVendorServing(services, tt, v, earlier)
  {
    var j :| 0 <= j < |services| && CoversFromEnd(services[j], tt, v, date);
    assert CoversFromEnd(services[j], tt, v, earlier);
  }
}

=== FILE: wrappers.dfy ===
/** Failure-carrying values shared by the modules of this model. */
module Wrappers {

  datatype Option<+T> = None | Some(value: T)

  /** The outcome of an operation that may raise a validation error. A raised
      error carries the list of its messages (a model's full_clean collects
      every failing check before it raises). The type admits `Err([])`, but
      every `Err` this model builds carries at least one error. */
  datatype Result<+T, +E> = Ok(value: T) | Err(errors: seq<E>)
}
